=== FILE: README.md ===
# A model of the application table library

The repository is a small browser helper script. It comes in two versions, `applib.js` and the older `1.js`. Each defines:

- `DataTableLib`, a table that fetches JSON records, searches them, sorts them by a column and pages them;
- in `applib.js` also a `FormValidator` with four validation rules;
- in `applib.js` also an `ApiClient` that builds request URLs and default headers.

This project models the logic behind those classes. The DOM, the timers and the network are left out:

- a fetched response is a parameter;
- every handler returns the new table state together with its effect (`Quiet`, a `Fetch`, an error shown in the error box, or an uncaught `TypeError`);
- a DOM lookup (the element `isMatch` compares with) is a function parameter.

Modules:

- `Maybe`: the option type.
- `Text`: JavaScript string operations on `seq<char>`:
  - `trim` and `toLowerCase`;
  - `includes`, `split` and `join`;
  - `String(int)` and `Number(string)` for integers.
- `Json`: JSON values as JavaScript sees them:
  - `Object.values`, property access, truthiness and array-index keys;
  - `getArrayFromData`;
  - `flattenValues`.
- `Seqs`: `Array.prototype.filter` and `slice`, with a reference description of filtering as an order-preserving selection.
- `Sorting`:
  - the sort configuration toggle;
  - JavaScript's `<` on scalars;
  - a stable sort driven by the source's comparator, with its permutation and ordering properties.
- `Paging`:
  - page count and page slice;
  - the pagination controls as the source lays them out;
  - a corrected layout for comparison (see Findings).
- `Records`: the record-level parts both table versions share:
  - the search key and the record matcher;
  - the `total` a server reports;
  - the TypeError message texts.
- `Uri`: `encodeURIComponent` (UTF-8, then percent-escapes) and its inverse, with the round trip proved.
- `Validator`: `FormValidator.rules` and `FormValidator.validate`.
- `ApiClient`: the constructor's settings, `setToken`, `buildUrl` and `getDefaultHeaders`.
- `AppTable`: `DataTableLib` of `applib.js`.
- `LegacyTable`: `DataTableLib` of `1.js`, including `buildServerSideUrl`.

## Model

| member | source | states |
|---|---|---|
| Validator.RuleNamed | applib.js:5-16 | exactly the four names isRequired, isEmail, minLength and isMatch select a built-in rule; every other name selects none |
| Validator.MatchesEmail | applib.js:8-9 | the scan answers true exactly when `\S+@\S+\.\S+` matches somewhere in the value: an "@" with a non-space before it, then a non-space run holding a "." with a non-space after it |
| Validator.Check | applib.js:6-15 | isRequired passes iff the value is not all white space; isEmail iff the pattern matches; minLength iff the first parameter reads as a number not above the length; isMatch iff the looked-up element's value equals the value; every failure message starts with "*" |
| Validator.MinLengthOfNumber | applib.js:10-11 | `minLength:m` with m written as an integer passes exactly when the value has at least m characters |
| Validator.MinLengthWithoutParam | applib.js:10-11 | `minLength` without a parameter always fails, and its message quotes `undefined` |
| Validator.RuleEntries | applib.js:51 | a missing or empty rule attribute gives no entries; otherwise the entries hold no "," and rejoined with "," give back the attribute |
| Validator.ParseEntry | applib.js:54 | a rule name and parameters that hold no ":" and rejoined with ":" give back the entry |
| Validator.FirstMessage | applib.js:53-59 | the reference reading: "" iff every entry passes, otherwise the message of an entry all of whose predecessors pass |
| Validator.Validate | applib.js:50-68 | the loop's message equals the reference first message, and the input is valid iff every entry passes (entries naming no rule pass) |
| Validator.FirstMessageAppend | applib.js:53-59 | rules run in order: the first part of a rule list decides, unless it gives no message |
| Validator.UnknownEntrySkipped | applib.js:55 | an entry that names no built-in rule can be inserted anywhere without changing the result |
| ApiClient.New | applib.js:391-396 | a base URL ending in "/" loses exactly that one "/", any other is kept as given; the token is stored as given; given headers are kept and missing ones become {}; the timeout is the given one unless it is missing or 0, which become 10000 |
| ApiClient.SetToken | applib.js:398-400 | the token is replaced and no other setting changes |
| ApiClient.BuildUrl | applib.js:402-404 | the URL is the longest prefix of base + "/" + endpoint that does not end in "/"; every character cut off is a "/" |
| ApiClient.BuildUrlPlain | applib.js:402-404 | for an endpoint not ending in "/" the URL is exactly base + "/" + endpoint |
| ApiClient.DropSlashesIdempotent | applib.js:403 | removing the trailing "/" run a second time changes nothing |
| ApiClient.Spread | applib.js:418-421 | after spreading a literal, each name has the value of the literal's last property of that name, else its old value; existing names keep their places; names stay unique |
| ApiClient.DefaultHeaders | applib.js:417-433 | the headers have unique names with Content-Type first; Cache-Control and Pragma are "no-cache" on request; Authorization is "Bearer " + token when there is a token; Content-Type is JSON unless the client's headers name one; any other header is the client's own |
| Text.Trim | applib.js:7 | the result is a substring of the input with no white space at either end, and it is empty exactly when the input is all white space |
| Text.TrimUnique | applib.js:7 | trimming gives s[i..j] for the only i and j with white space before i and from j on, and no white space at the ends of s[i..j] |
| Text.TrimIdempotent | applib.js:215 | trimming twice is trimming once |
| Text.TrimPadded | applib.js:215 | white space added on either side does not change the trimmed text |
| Text.Lower | applib.js:215 | lower-casing keeps the length and lowers each character on its own |
| Text.LowerTrimCommute | applib.js:215 | lower-casing then trimming equals trimming then lower-casing |
| Text.Split | applib.js:51 | at least one piece, no piece holds the separator, and joining the pieces gives back the text |
| Text.SplitJoin | applib.js:54 | splitting undoes joining pieces that hold no separator |
| Text.IntToString | 1.js:77 | digits after an optional sign, with "-" first exactly for a negative number |
| Text.ParseNatToString | 1.js:77 | reading back the decimal form of a natural number gives that number |
| Text.ToNumberIntToString | applib.js:11 | `Number(String(i))` is i for every integer i |
| Json.CanonicalIndex | 1.js:127 | a key reads as an array index only when it is the decimal form of a number up to 2^32 - 2 |
| Json.CanonicalIndexOfNat | 1.js:127 | the decimal form of every index up to 2^32 - 2 reads back as that index |
| Json.Values | 1.js:127 | `Object.values`: an array's items, an object's property values in order, a string's characters, nothing for a number or boolean |
| Json.FieldNamed | applib.js:250-251 | a property is found iff the record has one of that name, and the found value is that of such a property |
| Json.FirstArrayField | applib.js:131-133 | the first property whose value is an array, and none exactly when no property holds an array |
| Json.GetArray | applib.js:129-135 | an array gives its items, an object the items of its first array-valued property, and anything else nothing |
| Json.GetArrayOf | 1.js:60 | a missing `data` gives no records, a present one what `getArrayFromData` gives |
| Json.Leaves | applib.js:206-212 | every value `flattenValues` returns is a scalar, never an array or object |
| Json.LeavesExact | applib.js:206-212 | a value is among those `flattenValues` returns exactly when it is a scalar reached through the nesting of arrays and objects, or a one-character string of a top-level string |
| Json.ScalarItemIsLeaf | applib.js:206-212 | every scalar item of an array is among its flattened values |
| Json.ScalarFieldIsLeaf | applib.js:206-212 | every scalar property value of an object is among its flattened values |
| Json.NestedFieldLeaves | applib.js:206-212 | every flattened value of a nested array or object is a flattened value of the record holding it |
| Seqs.Filter | applib.js:217-224 | every element kept satisfies the predicate and comes from the input, and every input element that satisfies it is kept |
| Seqs.FilterSelects | applib.js:217-224 | the filter result is the input at exactly the satisfying positions, in increasing order |
| Seqs.RelativeIndex | applib.js:288 | a slice bound within the length is kept, a larger one becomes the length, and a negative one counts from the end, clamped at 0 |
| Seqs.JsSlice | applib.js:286-288 | `slice(start, end)` is the run between the two resolved bounds, empty when they cross |
| Sorting.Select | applib.js:236-240 | the clicked key becomes the sort key, and the direction is descending exactly when that key was already sorted ascending |
| Sorting.SelectAgainFlips | applib.js:236-240 | clicking the same header again reverses the direction |
| Sorting.SelectThriceCycles | applib.js:236-240 | three clicks on one header give the state of one click |
| Sorting.LexLessIrreflexive | applib.js:252 | no string is less than itself |
| Sorting.LexTrichotomy | applib.js:252 | for two strings exactly one of less, equal or greater holds |
| Sorting.LexTransitive | applib.js:252 | string `<` is transitive |
| Sorting.NumeralAgainstNumber | applib.js:252 | `<` between an integer's decimal string and a number compares the two integers, in either order |
| Sorting.NumeralSortsByValue | applib.js:249-255 | a numeral string and a smaller number sort by numeric value, the number first |
| Sorting.BeforeWeakOrder | applib.js:249-255 | on a column of all numbers, all strings or all missing values, the comparator's "before" is asymmetric and its complement transitive |
| Sorting.SortBy | applib.js:249-255 | sorting only reorders the rows, as a multiset |
| Sorting.SortBySorted | applib.js:249-255 | on a uniform column the sorted rows are ordered in the chosen direction |
| Sorting.SortByAllEqual | 1.js:126-132 | when no row sorts before another, the order is unchanged |
| Paging.CeilDiv | applib.js:285 | `Math.ceil(n / d)` is the q with (q - 1) * d < n <= q * d |
| Paging.TotalPages | applib.js:283-285 | a positive count gives the fewest pages that hold it; a count in (-rows, 0] gives 1 because a zero quotient falls back to 1; a lower count gives its negative ceiling |
| Paging.TotalPagesOfCount | applib.js:285 | a record count gives at least one page: exactly one when there are no records, otherwise the fewest pages that hold them all |
| Paging.ClientPage | applib.js:286-288 | a page holds at most `rows` records, and page 0 holds none |
| Paging.ClientPageFrom | applib.js:286-288 | page p holds the records from (p - 1) * rows up to p * rows, both clamped to the record count |
| Paging.ClientPageNonEmpty | applib.js:285-288 | every page from 1 to the page count holds a record when there are records |
| Paging.PagesUpToPrefix | applib.js:286-288 | the first k pages together are the first k * rows records |
| Paging.PagesCoverRows | applib.js:285-288 | all pages from 1 to the page count together are exactly the records |
| Paging.LayoutPageList | applib.js:344-359 | the numbered buttons are 1 (from page 3 on), the pages next to the current one and the current page, then the last page (when the current page is at least 2 before it) |
| Paging.LayoutPageNumbers | applib.js:344-359 | the numbered buttons increase strictly, lie in 1..total, and a page is shown iff it is the first, the last or next to the current one |
| Paging.LayoutOneActive | applib.js:348-350 | exactly the current page's button is marked active |
| Paging.LayoutTargetsInRange | applib.js:344-359 | "«" is disabled exactly on page 1, "»" exactly on the last page, and every enabled button targets a page in 1..total |
| Paging.LayoutEllipses | applib.js:346-352 | one leading "..." from page 3 on, and one trailing "..." while the current page is more than 2 before the last |
| Paging.LayoutSpuriousEllipsis | applib.js:345-347 | on page 3 the layout shows 1, "...", 2 although no page lies between 1 and 2 |
| Paging.IntendedLayoutMarksHiddenPages | applib.js:344-359 | in the corrected layout every "..." stands between two page buttons that have hidden pages between them, and adjacent page buttons are consecutive pages |
| Paging.IntendedLayoutDiffersOnlyOnPage3 | applib.js:346 | the corrected layout equals the source's layout on every page but 3 |
| Paging.IntendedLayoutOnPage3 | applib.js:346 | on page 3 the source's layout is the corrected one with a "..." added after button 1 |
| Paging.IntendedTargetsInRange | applib.js:344-359 | the corrected layout shows the same pages as the source's and keeps its "«"/"»" and target properties |
| Paging.TablePages | applib.js:279-285 | without pagination there is 1 page; otherwise the fewest pages that hold the rows in view (client mode) or the server's total (server mode), and at least 1 |
| Paging.TableRows | applib.js:278-290 | without pagination or in server mode the whole view is shown; otherwise the current page's run of at most `rows` records, from (page - 1) * rows clamped to the view |
| Paging.TableControls | applib.js:343-359 | controls exist iff pagination is on; they open with « to the previous page, disabled exactly on page 1, and close with » to the next page, disabled exactly on the last page; from a page within range the page buttons increase and are exactly the first, the last and those next to the current one, and there is one "..." from page 3 on plus one while the current page is more than two before the last |
| Paging.LayoutFacts | applib.js:343-359 | the same facts about the layout as written, for a current page within range |
| Paging.TableControlTargets | applib.js:343-359 | from a valid page every enabled button of the control targets a page between 1 and the page count |
| Records.ReportedTotal | applib.js:195 | `result.total` counts only when it is a non-zero integer, and then it is that integer |
| Records.SearchKey | applib.js:215 | the key is the keyword trimmed and lower-cased |
| Records.PaddedKey | applib.js:215 | white space around a keyword does not change the key |
| Records.BlankKey | applib.js:215 | an all-blank keyword gives the empty key |
| Records.FieldMatches | applib.js:217-222 | a record matches when one of its scalar properties, as lower-case text, contains the key |
| Records.NestedMatches | applib.js:206-222 | a record matches when one of its nested arrays or objects matches |
| Records.MatchesExactly | applib.js:206-222 | a record matches exactly when some scalar within it, as lower-case text, contains the key |
| Records.SearchView | applib.js:215-224 | a blank key keeps every record; otherwise the view fails iff a record is null, and else holds exactly the matching records |
| Records.SearchSelects | applib.js:217-224 | with a keyword that is not all white space and no null record, the view is the records at exactly the matching positions, in order |
| Uri.Utf8 | 1.js:78 | a character takes one to four bytes, and one byte exactly when it is ASCII |
| Uri.Utf8RoundTrip | 1.js:78 | decoding the UTF-8 bytes of a text gives the text back |
| Uri.HexDigitValue | 1.js:78 | every hex digit written by the escaper reads back as its value |
| Uri.EscapeDecodes | 1.js:78 | percent-decoding reads an escaped byte back in front of the rest |
| Uri.PercentDecodeEscapes | 1.js:78 | percent-decoding the escapes of a byte string gives that byte string back |
| Uri.EncodeChar | 1.js:78 | an unreserved character stays as it is; any other becomes "%" escapes; the output holds only unreserved characters and "%" |
| Uri.Encode | 1.js:78 | the encoding holds only unreserved characters and "%", and it is empty exactly for the empty text |
| Uri.EncodeBytes | 1.js:78 | percent-decoding the encoding of a text gives its UTF-8 bytes |
| Uri.DecodeEncode | 1.js:78 | decoding the encoding of every text gives the text back |
| AppTable.Create | applib.js:97-127 | a new table has no records, no sort key and ascending order; each option that is given is kept, and unset ones default to 5 rows, page 1, a total of 0, client-side, paginated |
| AppTable.LoadedRows | applib.js:181-190 | the records are `getArrayFromData` of the body, or of what `formatData` returns when it is given |
| AppTable.Load | applib.js:162-204 | a good response replaces the records and the view, and takes the total from the server on server-side tables (the reported total, else the record count); a null body on a server-side table shows the error of reading `total`; an HTTP error or a failed fetch shows its message, an abort shows nothing, and the table stays as it was; the page, size, mode and sort never change |
| AppTable.Search | applib.js:214-227 | the view becomes the search result and the page 1; a null record makes the filter throw and nothing changes |
| AppTable.SearchSelects | applib.js:214-227 | with a keyword that is not all white space and no null record, searching succeeds, returns to page 1 and shows the records at exactly the matching positions, in order |
| AppTable.SearchIgnoresView | applib.js:216-217 | the result of a search depends only on the records, not on the current view |
| AppTable.SearchIdempotent | applib.js:214-227 | when the search succeeds (a blank keyword, or no null record), searching twice for the same keyword is searching once |
| AppTable.SearchPadded | applib.js:215 | white space around the keyword changes nothing |
| AppTable.BlankSearchReloads | applib.js:224-225 | a blank keyword does what `reload` does |
| AppTable.OnSearchInput | applib.js:148-158 | a server-side table returns to page 1 and calls `fetchData(1, keyword)`, whose URL carries page and keyword only through a page-supplied `buildUrl`; a client-side one searches |
| AppTable.Cell | applib.js:250-251 | `a[key]` for one record, missing for a `null` record (whose comparison the sort reports as a throw) |
| AppTable.SortColumn | applib.js:247-248 | the sort runs only once a non-empty key has been chosen |
| AppTable.SortData | applib.js:246-257 | sorting only reorders the view; without a key nothing happens; it throws exactly when two or more rows include a null one |
| AppTable.OnHeaderClick | applib.js:234-242 | a click records the key and toggles the direction as `Select` does, then reorders the view; a header without a key leaves the rows alone |
| AppTable.OnDoubledHeaderClick | applib.js:137-140 | with two listeners on each header cell, a click records the key, leaves the direction descending exactly when a single click would have left it ascending, reorders the view, and throws exactly when a single click would |
| AppTable.FirstClickAfterInit | applib.js:137-140 | after `init` has loaded and rendered the records, the first click on a header sorts descending, not ascending as one toggle would, and on a uniform column leaves the view in descending order |
| AppTable.HeaderClickSorts | applib.js:234-257 | on a uniform column without null rows a click leaves the view ordered in the new direction |
| AppTable.SortByMissingColumnKeepsOrder | applib.js:249-255 | sorting by a property no row has keeps the order |
| AppTable.PageCount | applib.js:279-285 | the table's page count, as `Paging.TablePages` states it for the table's own settings |
| AppTable.Visible | applib.js:279-290 | the records the body shows, as `Paging.TableRows` states it for the table's own settings |
| AppTable.Controls | applib.js:308 | the pagination control under the table, as `Paging.TableControls` states it for the current page and page count |
| AppTable.VisibleNonEmpty | applib.js:285-288 | every page from 1 to the page count of a non-empty view shows a record |
| AppTable.Click | applib.js:334-339 | a click moves to the target page, and on a server-side table calls `fetchData(page)`, whose URL carries the page only through a page-supplied `buildUrl` |
| AppTable.ClickStaysInRange | applib.js:334-359 | clicking any enabled control from a valid page leads to a valid page |
| AppTable.Reload | applib.js:368-372 | the view becomes all records and the page 1, and nothing else changes |
| AppTable.ReloadIdempotent | applib.js:368-372 | reloading twice is reloading once |
| AppTable.LoadCanStrandPage | applib.js:192-196 | a load keeps the current page even when the new records have fewer pages, so page 2 of an empty load shows nothing |
| LegacyTable.Create | 1.js:6-27 | a new table has empty data, no sort key and ascending order, and keeps the API URL; each option that is given is kept, and unset ones default to page 1, 5 rows, a total of 0, client-side, paginated |
| LegacyTable.HeaderKeyOf | 1.js:113 | a header's non-empty `data-key` is its key, otherwise its position |
| LegacyTable.Separator | 1.js:76 | the query separator is "&" iff the API URL already has a "?" |
| LegacyTable.BuildServerSideUrl | 1.js:75-80 | the URL starts with the API URL followed by the separator |
| LegacyTable.FetchUrl | 1.js:53 | a client-side fetch goes to the API URL; a server-side one to the API URL, the separator, and a query whose parameters read back as page, limit and, iff the term is non-empty, search |
| LegacyTable.UrlParameters | 1.js:77-78 | the query splits into page=..., limit=... and, iff the term is non-empty, search=...; page, limit and term read back to the values passed in |
| LegacyTable.QueryJoins | 1.js:77-78 | no parameter holds "&", and joined with "&" they are the query |
| LegacyTable.Load | 1.js:50-73 | server-side: a null body shows the error of reading `data`, otherwise the view is the array in `data` and the total is the reported one, else 0; client-side: the data is the body as it came and the view its array; HTTP and fetch errors are shown and change nothing |
| LegacyTable.LoadCorrected | 1.js:62-65 | a client-side load keeps the extracted array as the data |
| LegacyTable.WrappedLoadBreaksSearch | 1.js:63-64 | after a client-side load of a body wrapping its records in an object, the records show, but reload throws "this.data is not iterable" and search throws "this.data.filter is not a function" |
| LegacyTable.CorrectedLoadKeepsSearch | 1.js:63-64 | after a corrected load, reload succeeds and restores the loaded view, and search succeeds when no record is null |
| LegacyTable.Spread | 1.js:102 | spreading the data gives an array's items, or a string's characters one by one in order, and throws for anything else |
| LegacyTable.Search | 1.js:90-105 | server-side it fetches page 1 with the term and changes nothing; otherwise a blank key restores all records, a non-array data makes the filter throw, and else the view becomes the matching records and the page 1 |
| LegacyTable.SearchPadded | 1.js:95 | on a client-side table white space around the keyword changes nothing |
| LegacyTable.BlankSearchReloads | 1.js:102 | on a client-side table a blank keyword does what `reload` does |
| LegacyTable.SearchSelects | 1.js:96-101 | with array data, a keyword that is not all white space and no null record, the view is the records at exactly the matching positions, in order |
| LegacyTable.ServerSearchKeepsPage | 1.js:91-93 | a server-side search leaves the current page alone while it fetches page 1 |
| LegacyTable.Reload | 1.js:230-234 | the view becomes the spread data and the page 1, or the spread throws; nothing else changes |
| LegacyTable.ReloadIdempotent | 1.js:230-234 | reloading twice is reloading once |
| LegacyTable.ValueAt | 1.js:127 | `Object.values(row)[key]`: a position, or a name that is the decimal form of a position, reads the value there exactly when it is in range; any other name reads nothing |
| LegacyTable.PositionCell | 1.js:127 | the value at the key's position of one record, missing for a `null` record (whose comparison the sort reports as a throw) |
| LegacyTable.OnHeaderClick | 1.js:112-133 | a click toggles the configuration as `Select` does and reorders the view; it throws exactly when two or more rows include a null one |
| LegacyTable.HeaderClickSorts | 1.js:112-133 | on a uniform column without null rows a click leaves the view ordered in the new direction |
| LegacyTable.SortByMissingPositionKeepsOrder | 1.js:126-132 | sorting by a position no row has keeps the order |
| LegacyTable.PageCount | 1.js:144-149 | the table's page count, as `Paging.TablePages` states it for the table's own settings |
| LegacyTable.Visible | 1.js:144-153 | the records the body shows, as `Paging.TableRows` states it for the table's own settings |
| LegacyTable.Controls | 1.js:205-220 | the pagination control under the table, as `Paging.TableControls` states it for the current page and page count |
| LegacyTable.Click | 1.js:193-199 | a click moves to the target page, and on a server-side table fetches that page's URL |
| LegacyTable.ClickStaysInRange | 1.js:193-220 | clicking any enabled control from a valid page leads to a valid page |

## Left out

- Rendering is left out: the DOM, the table body, the header cells, `onRender`, `showLoading` and `showError`'s element lookups. Only the state and the effect each handler ends with are modelled.
- The effects assume that rendering succeeds. A `null` record on the shown page makes rendering throw a TypeError (`row[col.field]` at `applib.js:297`, `Object.values(row)` at `1.js:159`). Inside `fetchData` that error is shown (`applib.js:199-200`, `1.js:68-69`), and from a reload, a client-side page click or a sort it escapes the handler. `AppTable.Load`, `AppTable.Reload`, `AppTable.Click`, `AppTable.SortData`, `LegacyTable.Load`, `LegacyTable.Reload` and `LegacyTable.Click` report `Quiet` in those cases; the render failure is not modelled.
- `async`, the fetch itself, abort controllers, the search debounce timer and `fetchWithTimeout` are left out. A response is a parameter, and only the first response for a request is modelled.
- AppTable.OnSearchInput and AppTable.Click: name the server-side request by page and term, the arguments of `fetchData`, not by URL. A page-supplied `buildUrl` function turns them into the URL and is not part of this model; without one (the default `buildUrl: null`, `applib.js:114`) the request goes to `api`, and page and term are not sent (`applib.js:172-175`), so every page click and search fetches the same URL.
- `formatData` is a total function parameter; a `formatData` that throws is not modelled.
- `init`, `getParent`, `showError`/`clearError` of `FormValidator` and its event wiring are left out. They are DOM work.
- The `isMatch` rule reads a page element. The lookup is a function parameter.
- Numbers are integers only. Fractional and non-finite values, `NaN` comparisons and `Number` of texts like "1e3" or "0x10" are not modelled.
- Records.ReportedTotal: treats a truthy `total` that is not an integer as absent.
- Strings are sequences of code points. `toLowerCase` lowers only A-Z, while JavaScript lowers all of Unicode. UTF-16 surrogate pairs and the URIError of a lone surrogate in `encodeURIComponent` are not modelled.
- JavaScript's `<` between a string and a number, boolean or null converts the string with `Number`; the model reads only integer strings as numbers, so a string such as "1.5" counts as `NaN` and compares false. Comparing with arrays or objects is false in the model.
- Json: object fields are taken to be stored in JavaScript's property enumeration order (integer-like keys first, ascending, then the rest in insertion order). The `for…in` of `getArrayFromData` (`applib.js:131`, `1.js:31`) and the `Object.values` at `1.js:127` depend on that order; the model does not reorder fields.
- Sorting.SortBy: the sort is a stable insertion sort that uses the source's comparator. It equals JavaScript's result whenever the comparator is consistent. Where a mixed-type column makes it inconsistent, the engine's actual order is not modelled.
- A comparator that throws because a row is `null` leaves the rows in their old order: `Array.prototype.sort` writes the sorted elements back only after sorting has finished.
- Error texts are those of the V8 engine.
- `rows` must be positive. A zero or negative `rows` option (a division by zero in the page count) is not modelled.
- A null `api`, the `length` property of arrays and strings, duplicate property names and rule names inherited from `Object.prototype` are not modelled.
- Json.Member: states only that a number or boolean has no properties. Property lookup on records is specified through `Json.FieldNamed` and `Json.Values`.
- ApiClient.New: models a missing token as "". The source stores `null`; both are falsy where the token is read.
- Paging.TableControls: builds the controls with `Paging.Layout`, the layout as written, so its ellipsis count includes the stray "..." on page 3 (see Findings); it does not promise that every "..." marks hidden pages. `1.js` computes its page count, page rows and controls the same way as `applib.js` (`1.js:145-154` and `1.js:205-220`), so both tables use `Paging.TablePages`, `Paging.TableRows` and `Paging.TableControls`.
- A page button sets `currentPage` to its target without clamping it to the page count (`applib.js:334-339`, `1.js:193-200`); `AppTable.LoadCanStrandPage` shows a page left beyond the last one.
- Which click listeners the header cells carry is not tracked. Every render replaces the header cells (`applib.js:266-273`) and gives the new ones one listener (`applib.js:309`); `init` then adds a second one to the cells its first load rendered (`applib.js:140`), and they stay doubled until the next render. `AppTable.OnHeaderClick` is a click with one listener and `AppTable.OnDoubledHeaderClick` a click with two; the caller chooses, and `AppTable.FirstClickAfterInit` shows that the first click after `init` sorts descending. `1.js` adds its listeners only in `init` (`1.js:46`), so there every click toggles once.

## Findings

| source | as written | input that shows it | evidently intended | confidence | as-written member | corrected member |
|---|---|---|---|---|---|---|
| applib.js:346 | a "..." follows button 1 whenever the current page is at least 3 (`1.js:208` is the same) | current page 3 of 6 pages: the controls read «, 1, ..., 2, 3, 4, ..., 6, » although no page lies between 1 and 2 | a "..." only when a page is hidden between 1 and the page before the current one, that is from page 4 on; inferred from symmetry with the trailing rule `c < t - 2` (`applib.js:351`), which adds a "..." only when a page is hidden before the last | medium, not executed | Paging.LayoutSpuriousEllipsis | Paging.IntendedLayoutMarksHiddenPages |
| 1.js:63 | a client-side load stores the response body itself as the data, while the view gets the array extracted from it | a body `{"items": [r1, r2]}`: the rows show, then `reload` throws "this.data is not iterable" and `search("x")` throws "this.data.filter is not a function" | the data holds the extracted array, as `applib.js:189` does | high, not executed | LegacyTable.WrappedLoadBreaksSearch | LegacyTable.CorrectedLoadKeepsSearch |

=== FILE: api_client.dfy ===
/** The pure parts of `ApiClient`: the settings its constructor keeps, the
    URL it builds for an endpoint and the headers it sends by default. */
module ApiClient {

  import opened Maybe

  // ---------------------------------------------------------------------
  // Settings

  /** A client's settings. `token` is "" when there is none (the source
      keeps `null`; both are falsy where the token is read). */
  datatype Client = Client(baseUrl: string, defaultHeaders: Properties, token: string, timeout: int)

  const DefaultTimeout: int := 10000

  /** `s.replace(/\/$/, "")`: one trailing "/" removed, if there is one. */
  function DropOneSlash(s: string): (r: string)
    ensures |s| > 0 && s[|s| - 1] == '/' ==> r + "/" == s
    ensures !(|s| > 0 && s[|s| - 1] == '/') ==> r == s
  {
    if |s| > 0 && s[|s| - 1] == '/' then s[..|s| - 1] else s
  }

  /** `new ApiClient(baseUrl, options)`. A missing header object is `{}`;
      a missing or empty token is none; a missing or zero timeout is
      10 seconds. */
  function New(baseUrl: string, headers: Option<Properties>, token: string, timeout: Option<int>): (c: Client)
    ensures |baseUrl| > 0 && baseUrl[|baseUrl| - 1] == '/' ==> c.baseUrl + "/" == baseUrl
    ensures !(|baseUrl| > 0 && baseUrl[|baseUrl| - 1] == '/') ==> c.baseUrl == baseUrl
    ensures c.token == token
    ensures headers.None? ==> c.defaultHeaders == []
    ensures headers.Some? ==> c.defaultHeaders == headers.value
    ensures c.timeout != 0
    ensures timeout.Some? && timeout.value != 0 ==> c.timeout == timeout.value
  {
    Client(DropOneSlash(baseUrl), headers.GetOr([]), token,
           if timeout.Some? && timeout.value != 0 then timeout.value else DefaultTimeout)
  }

  /** `setToken(token)`. */
  function SetToken(c: Client, token: string): (r: Client)
    ensures r.token == token
    ensures r.baseUrl == c.baseUrl && r.defaultHeaders == c.defaultHeaders && r.timeout == c.timeout
  {
    c.(token := token)
  }

  // ---------------------------------------------------------------------
  // URLs

  /** `s.replace(/\/+$/, "")`: the whole run of trailing "/" removed. */
  function DropSlashes(s: string): (r: string)
    ensures |r| <= |s| && r == s[..|r|]
    ensures forall i :: |r| <= i < |s| ==> s[i] == '/'
    ensures |r| > 0 ==> r[|r| - 1] != '/'
  {
    if |s| > 0 && s[|s| - 1] == '/' then DropSlashes(s[..|s| - 1]) else s
  }

  /** `buildUrl(endpoint)`: base URL, "/", endpoint, trailing "/" removed. */
  function BuildUrl(c: Client, endpoint: string): (r: string)
    ensures |r| > 0 ==> r[|r| - 1] != '/'
    ensures |r| <= |c.baseUrl + "/" + endpoint| && r == (c.baseUrl + "/" + endpoint)[..|r|]
    ensures forall i :: |r| <= i < |c.baseUrl + "/" + endpoint| ==> (c.baseUrl + "/" + endpoint)[i] == '/'
  {
    DropSlashes(c.baseUrl + "/" + endpoint)
  }

  /** An endpoint that does not end in "/" is appended unchanged after one
      separating "/". */
  lemma BuildUrlPlain(c: Client, endpoint: string)
    requires |endpoint| > 0 && endpoint[|endpoint| - 1] != '/'
    ensures BuildUrl(c, endpoint) == c.baseUrl + "/" + endpoint
  {
    var s := c.baseUrl + "/" + endpoint;
    assert s[|s| - 1] == endpoint[|endpoint| - 1];
  }

  /** Removing trailing "/" a second time changes nothing. */
  lemma DropSlashesIdempotent(s: string)
    ensures DropSlashes(DropSlashes(s)) == DropSlashes(s)
  {
  }

  // ---------------------------------------------------------------------
  // Headers

  /** The properties of an object literal as written, in order. */
  type Properties = seq<(string, string)>

  /** A header object: its property names in order and their values. */
  datatype Object = Object(names: seq<string>, values: map<string, string>)

  /** Each name once, and a value exactly for the listed names. */
  ghost predicate Valid(o: Object) {
    && (forall i, j :: 0 <= i < j < |o.names| ==> o.names[i] != o.names[j])
    && (forall n :: n in o.values <==> n in o.names)
  }

  /** `o[name]`, `None` for `undefined`. */
  function Get(o: Object, name: string): Option<string> {
    if name in o.values then Some(o.values[name]) else None
  }

  /** `o[name] = value`: an existing property keeps its place and takes
      the new value, a new one goes at the end. */
  function Put(o: Object, name: string, value: string): (r: Object)
    ensures Get(r, name) == Some(value)
    ensures forall n :: n != name ==> Get(r, n) == Get(o, n)
    ensures |r.names| >= |o.names| && forall i :: 0 <= i < |o.names| ==> r.names[i] == o.names[i]
    ensures Valid(o) ==> Valid(r)
  {
    Object(if name in o.values then o.names else o.names + [name], o.values[name := value])
  }

  /** The value the last property named `name` has in a literal. */
  function LastValue(props: Properties, name: string): Option<string> {
    if |props| == 0 then None
    else if props[|props| - 1].0 == name then Some(props[|props| - 1].1)
    else LastValue(props[..|props| - 1], name)
  }

  /** `{ ...o, ...props }`: the properties are set in turn on a copy of
      `o`, so the last one with a given name decides its value. */
  function Spread(o: Object, props: Properties): (r: Object)
    ensures forall n :: Get(r, n) == if LastValue(props, n).Some? then LastValue(props, n) else Get(o, n)
    ensures |r.names| >= |o.names| && forall i :: 0 <= i < |o.names| ==> r.names[i] == o.names[i]
    ensures Valid(o) ==> Valid(r)
  {
    if |props| == 0 then o
    else
      var last := props[|props| - 1];
      Put(Spread(o, props[..|props| - 1]), last.0, last.1)
  }

  // ---------------------------------------------------------------------
  // Default headers

  /** The header names `getDefaultHeaders` itself may set. */
  predicate Managed(n: string) {
    n == "Content-Type" || n == "Authorization" || n == "Cache-Control" || n == "Pragma"
  }

  /** `{ "Content-Type": "application/json", ...defaultHeaders }`. */
  function BaseHeaders(defaults: Properties): (r: Object)
    ensures Valid(r)
    ensures |r.names| > 0 && r.names[0] == "Content-Type"
    ensures Get(r, "Content-Type") == Some(LastValue(defaults, "Content-Type").GetOr("application/json"))
    ensures forall n :: n != "Content-Type" ==> Get(r, n) == LastValue(defaults, n)
  {
    Spread(Object(["Content-Type"], map["Content-Type" := "application/json"]), defaults)
  }

  /** The bearer token, set when the client has one. */
  function WithToken(h: Object, token: string): (r: Object)
    ensures Valid(h) ==> Valid(r)
    ensures |r.names| >= |h.names| && forall i :: 0 <= i < |h.names| ==> r.names[i] == h.names[i]
    ensures Get(r, "Authorization") == if token != "" then Some("Bearer " + token) else Get(h, "Authorization")
    ensures forall n :: n != "Authorization" ==> Get(r, n) == Get(h, n)
  {
    if token != "" then Put(h, "Authorization", "Bearer " + token) else h
  }

  /** The two no-cache headers, set on request. */
  function WithNoCache(h: Object, noCache: bool): (r: Object)
    ensures Valid(h) ==> Valid(r)
    ensures |r.names| >= |h.names| && forall i :: 0 <= i < |h.names| ==> r.names[i] == h.names[i]
    ensures Get(r, "Cache-Control") == if noCache then Some("no-cache") else Get(h, "Cache-Control")
    ensures Get(r, "Pragma") == if noCache then Some("no-cache") else Get(h, "Pragma")
    ensures forall n :: n != "Cache-Control" && n != "Pragma" ==> Get(r, n) == Get(h, n)
  {
    ManagedNamesDiffer();
    if noCache then Put(Put(h, "Cache-Control", "no-cache"), "Pragma", "no-cache") else h
  }

  /** What `getDefaultHeaders` promises for each header name: the
      no-cache headers on request, the bearer token when there is one, JSON
      as content type unless the client's headers name another, and
      otherwise whatever the client's headers say. */
  function Expected(c: Client, noCache: bool, n: string): Option<string> {
    if noCache && (n == "Cache-Control" || n == "Pragma") then Some("no-cache")
    else if n == "Authorization" && c.token != "" then Some("Bearer " + c.token)
    else if n == "Content-Type" then Some(LastValue(c.defaultHeaders, n).GetOr("application/json"))
    else LastValue(c.defaultHeaders, n)
  }

  /** `getDefaultHeaders(noCache)`. */
  function DefaultHeaders(c: Client, noCache: bool): (r: Object)
    ensures Valid(r)
    ensures |r.names| > 0 && r.names[0] == "Content-Type"
    ensures forall n :: Get(r, n) == Expected(c, noCache, n)
  {
    var h0 := BaseHeaders(c.defaultHeaders);
    var h1 := WithToken(h0, c.token);
    var r := WithNoCache(h1, noCache);
    DefaultHeadersGet(c, noCache, h0, h1, r);
    r
  }

  lemma DefaultHeadersGet(c: Client, noCache: bool, h0: Object, h1: Object, r: Object)
    requires forall n :: n != "Content-Type" ==> Get(h0, n) == LastValue(c.defaultHeaders, n)
    requires Get(h0, "Content-Type") == Some(LastValue(c.defaultHeaders, "Content-Type").GetOr("application/json"))
    requires Get(h1, "Authorization") == if c.token != "" then Some("Bearer " + c.token) else Get(h0, "Authorization")
    requires forall n :: n != "Authorization" ==> Get(h1, n) == Get(h0, n)
    requires Get(r, "Cache-Control") == if noCache then Some("no-cache") else Get(h1, "Cache-Control")
    requires Get(r, "Pragma") == if noCache then Some("no-cache") else Get(h1, "Pragma")
    requires forall n :: n != "Cache-Control" && n != "Pragma" ==> Get(r, n) == Get(h1, n)
    ensures forall n :: Get(r, n) == Expected(c, noCache, n)
  {
    ManagedNamesDiffer();
  }

  lemma ManagedNamesDiffer()
    ensures "Content-Type" != "Authorization" && "Content-Type" != "Cache-Control"
    ensures "Content-Type" != "Pragma" && "Authorization" != "Cache-Control"
    ensures "Authorization" != "Pragma" && "Cache-Control" != "Pragma"
  {
    assert |"Content-Type"| == 12 && |"Authorization"| == 13;
    assert |"Cache-Control"| == 13 && |"Pragma"| == 6;
    assert "Authorization"[0] != "Cache-Control"[0];
  }
}

=== FILE: app_table.dfy ===
/** `DataTableLib` of applib.js as a state machine: the table's state is an
    immutable record, and each thing that happens to the table (a fetch
    result arriving, a search, a header click, a page button click, a
    reload) is a function from the state to the next state together with
    the one effect the table then has on the outside world. */
module AppTable {

  import opened Maybe
  import opened Text
  import opened Json
  import opened Seqs
  import opened Sorting
  import opened Paging
  import opened Records

  // ---------------------------------------------------------------------
  // State

  /** A header's `data-key`; `None` is a header without one (`undefined`).
      A sort configuration's key is `None` before the first click (`null`)
      and `Some(k)` after a click on a header with key `k`. */
  type ColumnKey = Option<string>

  datatype Table = Table(
    data: seq<Value>,
    filteredData: seq<Value>,
    currentPage: int,
    rows: int,
    totalRows: int,
    serverSide: bool,
    pagination: bool,
    sortConfig: SortConfig<ColumnKey>)

  /** The constructor options the model reads; `None` is an option left
      out. */
  datatype Options = Options(
    rows: Option<int>,
    currentPage: Option<int>,
    totalRows: Option<int>,
    serverSide: Option<bool>,
    pagination: Option<bool>)

  /** `new DataTableLib(options)`: the defaults are 5 rows per page, page
      1, client mode with pagination and a total of 0; there is no data
      and no sort column yet. */
  function Create(o: Options): (t: Table)
    ensures t.data == [] && t.filteredData == []
    ensures t.sortConfig.key == None && t.sortConfig.direction == Asc
    ensures o.rows.None? ==> t.rows == 5
    ensures o.currentPage.None? ==> t.currentPage == 1
    ensures o.totalRows.None? ==> t.totalRows == 0
    ensures o.serverSide.None? ==> !t.serverSide
    ensures o.pagination.None? ==> t.pagination
    ensures o.rows.Some? ==> t.rows == o.rows.value
    ensures o.currentPage.Some? ==> t.currentPage == o.currentPage.value
    ensures o.totalRows.Some? ==> t.totalRows == o.totalRows.value
    ensures o.serverSide.Some? ==> t.serverSide == o.serverSide.value
    ensures o.pagination.Some? ==> t.pagination == o.pagination.value
  {
    Table([], [], o.currentPage.GetOr(1), o.rows.GetOr(5), o.totalRows.GetOr(0),
          o.serverSide.GetOr(false), o.pagination.GetOr(true), SortConfig(None, Asc))
  }

  /** A call of `fetchData(page, searchTerm)`. In server mode a page that
      supplies a `buildUrl` function decides the URL from page and term;
      without one (the default is `null`) the request goes to `api`, and
      page and term are not sent (applib.js:172-175). */
  datatype Request = Request(page: int, searchTerm: string)

  /** What the table does besides changing its state: nothing visible
      beyond re-rendering, start a fetch, show a message in its error
      element, or let an exception escape the event handler. */
  datatype Effect =
    | Quiet
    | Fetch(request: Request)
    | ShowError(message: string)
    | Uncaught(message: string)

  datatype Step = Step(table: Table, effect: Effect)

  // ---------------------------------------------------------------------
  // A fetch result arriving

  /** The rows a body yields: `formatData(result) || []` when the page
      supplies a `formatData` callback, then the array itself or the array
      `getArrayFromData` finds in it. A falsy result of the callback adds
      nothing of its own: it too yields no rows. */
  function LoadedRows(body: Value, format: Option<Value -> Value>): (r: seq<Value>)
    ensures format.None? ==> r == GetArray(body)
    ensures format.Some? ==> r == GetArray(format.value(body))
  {
    if format.Some? then
      var formatted := format.value(body);
      var f := if Truthy(formatted) then formatted else Arr([]);
      if f.Arr? then f.items else GetArray(f)
    else GetArray(body)
  }

  /** `fetchData` from the moment the fetch settles. On success the rows
      become both `data` and `filteredData`; `totalRows` is their number,
      or in server mode `result.total` when that is truthy. A `null` body
      in server mode throws on reading `total` after the rows were
      assigned. On failure nothing is assigned, and an abort is not
      reported. */
  function Load(t: Table, resp: Response, format: Option<Value -> Value>): (s: Step)
    ensures resp.Ok? ==> s.table.data == LoadedRows(resp.body, format)
    ensures resp.Ok? ==> s.table.filteredData == s.table.data
    ensures resp.Ok? && !t.serverSide ==> s.table.totalRows == |s.table.data| && s.effect == Quiet
    ensures resp.Ok? && t.serverSide && !resp.body.Null? ==>
              s.effect == Quiet
              && s.table.totalRows == ReportedTotal(resp.body).GetOr(|s.table.data|)
    ensures resp.Ok? && t.serverSide && resp.body.Null? ==>
              s.table.totalRows == t.totalRows && s.effect == ShowError(NullPropertyMessage("total"))
    ensures !resp.Ok? ==> s.table == t
    ensures resp.HttpError? ==> s.effect == ShowError("HTTP error " + IntToString(resp.status))
    ensures resp.Failed? ==> (s.effect == Quiet <==> resp.name == "AbortError")
    ensures resp.Failed? && resp.name != "AbortError" ==> s.effect == ShowError(resp.message)
    ensures s.table.currentPage == t.currentPage && s.table.rows == t.rows
    ensures s.table.serverSide == t.serverSide && s.table.pagination == t.pagination
    ensures s.table.sortConfig == t.sortConfig
  {
    match resp
    case HttpError(status) => Step(t, ShowError("HTTP error " + IntToString(status)))
    case Failed(name, message) => Step(t, if name == "AbortError" then Quiet else ShowError(message))
    case Ok(body) =>
      var rows := LoadedRows(body, format);
      var u := t.(data := rows, filteredData := rows);
      if !t.serverSide then Step(u.(totalRows := |rows|), Quiet)
      else if body.Null? then Step(u, ShowError(NullPropertyMessage("total")))
      else Step(u.(totalRows := ReportedTotal(body).GetOr(|rows|)), Quiet)
  }

  // ---------------------------------------------------------------------
  // Search

  /** `search(keyword)`: the view becomes the search's records and the
      table returns to page 1; when the filter throws nothing changes. */
  function Search(t: Table, keyword: string): (s: Step)
    ensures SearchView(t.data, keyword).None? ==> s == Step(t, Uncaught(NullObjectMessage))
    ensures SearchView(t.data, keyword).Some? ==>
              s == Step(t.(filteredData := SearchView(t.data, keyword).value, currentPage := 1), Quiet)
  {
    match SearchView(t.data, keyword)
    case None => Step(t, Uncaught(NullObjectMessage))
    case Some(view) => Step(t.(filteredData := view, currentPage := 1), Quiet)
  }

  /** The search filters `data`, not the current view: whether it
      succeeds, and what it then shows, does not depend on an earlier
      search, sort or page change. */
  lemma SearchIgnoresView(t: Table, u: Table, keyword: string)
    requires u.data == t.data
    ensures Search(t, keyword).effect == Search(u, keyword).effect
    ensures Search(t, keyword).effect == Quiet ==>
              Search(t, keyword).table.filteredData == Search(u, keyword).table.filteredData
  {
  }

  /** A search for a non-blank keyword keeps exactly the records of
      `data` that match it, in their order in `data`, and shows page 1. */
  lemma SearchSelects(t: Table, keyword: string)
    requires !AllSpace(keyword) && Null !in t.data
    ensures Search(t, keyword).effect == Quiet && Search(t, keyword).table.currentPage == 1
    ensures var key := SearchKey(keyword);
            SelectsFrom(Search(t, keyword).table.filteredData, t.data, Matcher(key),
                        PositionsFrom(t.data, Matcher(key), 0), 0)
  {
    Records.SearchSelects(t.data, keyword);
  }

  /** When the search succeeds (a blank keyword, or no null record),
      searching again for the same keyword changes nothing. */
  lemma SearchIdempotent(t: Table, keyword: string)
    requires AllSpace(keyword) || Null !in t.data
    ensures Search(Search(t, keyword).table, keyword) == Search(t, keyword)
  {
  }

  /** White space around the keyword does not matter. */
  lemma SearchPadded(t: Table, pre: string, keyword: string, post: string)
    requires AllSpace(pre) && AllSpace(post)
    ensures Search(t, pre + keyword + post) == Search(t, keyword)
  {
    PaddedKey(pre, keyword, post);
  }

  /** A blank keyword is a reload. */
  lemma BlankSearchReloads(t: Table, keyword: string)
    requires AllSpace(keyword)
    ensures Search(t, keyword) == Reload(t)
  {
    BlankKey(keyword);
  }

  /** The debounced input handler: in server mode it returns to page 1 and
      fetches page 1 for the keyword as typed; in client mode it
      searches. */
  function OnSearchInput(t: Table, keyword: string): (s: Step)
    ensures t.serverSide ==> s == Step(t.(currentPage := 1), Fetch(Request(1, keyword)))
    ensures !t.serverSide ==> s == Search(t, keyword)
    ensures s.effect.Quiet? || s.effect.Fetch? ==> s.table.currentPage == 1
  {
    if t.serverSide then Step(t.(currentPage := 1), Fetch(Request(1, keyword)))
    else Search(t, keyword)
  }

  // ---------------------------------------------------------------------
  // Sorting

  /** The column `sortData` sorts by: none while the key is `null`,
      `undefined` or "" (`if (!key) return`). */
  function SortColumn(cfg: SortConfig<ColumnKey>): (r: Option<string>)
    ensures r.Some? <==> cfg.key.Some? && cfg.key.value.Some? && cfg.key.value.value != ""
    ensures r.Some? ==> cfg.key == Some(Some(r.value))
  {
    if cfg.key.Some? && cfg.key.value.Some? && cfg.key.value.value != "" then cfg.key.value else None
  }

  /** `row[k]`; `None` is `undefined`. */
  function Cell(k: string): Value -> Option<Value> {
    (row: Value) => if row.Null? then None else Member(row, k)
  }

  /** `sortData()`: `filteredData` reordered by the selected column, in a
      stable sort. Sorting two or more records compares each of them, so a
      `null` among them makes the comparator throw; the order is then
      left as it was. */
  function SortData(t: Table): (s: Step)
    ensures multiset(s.table.filteredData) == multiset(t.filteredData)
    ensures s.table == t.(filteredData := s.table.filteredData)
    ensures SortColumn(t.sortConfig).None? ==> s == Step(t, Quiet)
    ensures s.effect != Quiet ==>
              SortColumn(t.sortConfig).Some? && |t.filteredData| >= 2 && Null in t.filteredData
              && s == Step(t, Uncaught(NullPropertyMessage(SortColumn(t.sortConfig).value)))
    ensures SortColumn(t.sortConfig).Some? && |t.filteredData| >= 2 && Null in t.filteredData ==>
              s.effect != Quiet
  {
    match SortColumn(t.sortConfig)
    case None => Step(t, Quiet)
    case Some(k) =>
      if |t.filteredData| >= 2 && Null in t.filteredData then
        Step(t, Uncaught(NullPropertyMessage(k)))
      else
        Step(t.(filteredData := SortBy(t.filteredData, Cell(k), t.sortConfig.direction)), Quiet)
  }

  /** A click on the header with key `key`: the direction toggles or
      resets, the key is recorded, and the view is sorted. Neither `data`
      nor the current page changes. */
  function OnHeaderClick(t: Table, key: ColumnKey): (s: Step)
    ensures s.table.sortConfig.key == Some(key)
    ensures s.table.sortConfig.direction == Desc <==> t.sortConfig.key == Some(key) && t.sortConfig.direction == Asc
    ensures s.table == t.(filteredData := s.table.filteredData, sortConfig := s.table.sortConfig)
    ensures multiset(s.table.filteredData) == multiset(t.filteredData)
    ensures key.None? || key == Some("") ==> s.table.filteredData == t.filteredData && s.effect == Quiet
  {
    SortData(t.(sortConfig := Select(t.sortConfig, key)))
  }

  /** On a column whose values are all numbers, all strings or all
      missing, the sorted view is in order. */
  lemma HeaderClickSorts(t: Table, k: string)
    requires k != ""
    requires Null !in t.filteredData
    requires UniformColumn(t.filteredData, Cell(k))
    ensures var s := OnHeaderClick(t, Some(k));
            s.effect == Quiet && SortedBy(s.table.filteredData, Cell(k), s.table.sortConfig.direction)
  {
    SortBySorted(t.filteredData, Cell(k), Select(t.sortConfig, Some(k)).direction);
  }

  /** A click while each header cell carries two click listeners. `init`
      adds a second one (applib.js:140) to the cells its first load has
      just rendered with one (applib.js:309), and the cells stay that way
      until the next render replaces them. Both listeners run on the one
      click, so the direction toggles twice and the view is sorted twice.
      When a `null` row among two or more rows makes the sort throw, each
      listener lets its own TypeError escape; the step records one of the
      two identical errors. */
  function OnDoubledHeaderClick(t: Table, key: ColumnKey): (s: Step)
    ensures s.table.sortConfig.key == Some(key)
    ensures s.table.sortConfig.direction == Desc <==> !(t.sortConfig.key == Some(key) && t.sortConfig.direction == Asc)
    ensures s.table == t.(filteredData := s.table.filteredData, sortConfig := s.table.sortConfig)
    ensures multiset(s.table.filteredData) == multiset(t.filteredData)
    ensures s.effect != Quiet <==>
              key.Some? && key.value != "" && |t.filteredData| >= 2 && Null in t.filteredData
  {
    var first := OnHeaderClick(t, key);
    var u, v := first.table.filteredData, t.filteredData;
    assert |u| == |multiset(u)| == |v|;
    assert (Null in u <==> Null in multiset(u)) && (Null in multiset(v) <==> Null in v);
    OnHeaderClick(first.table, key)
  }

  /** The first header click after `init` has loaded and rendered the
      records sorts them descending, where a single toggle would sort
      them ascending; on a uniform column the view is then in descending
      order. A server-side load of a `null` body fails before rendering,
      so the cells are not doubled then. */
  lemma FirstClickAfterInit(o: Options, body: Value, format: Option<Value -> Value>, k: string)
    requires k != ""
    requires !(o.serverSide == Some(true) && body.Null?)
    ensures var t := Load(Create(o), Ok(body), format).table;
            var s := OnDoubledHeaderClick(t, Some(k));
            && OnHeaderClick(t, Some(k)).table.sortConfig == SortConfig(Some(Some(k)), Asc)
            && s.table.sortConfig == SortConfig(Some(Some(k)), Desc)
            && (Null !in t.filteredData && UniformColumn(t.filteredData, Cell(k)) ==>
                  s.effect == Quiet && SortedBy(s.table.filteredData, Cell(k), Desc))
  {
    var t := Load(Create(o), Ok(body), format).table;
    var first := OnHeaderClick(t, Some(k));
    if Null !in t.filteredData && UniformColumn(t.filteredData, Cell(k)) {
      var u := first.table.filteredData;
      forall i | 0 <= i < |u| ensures u[i] in t.filteredData {
        assert u[i] in multiset(u);
      }
      UniformColumnSub(t.filteredData, Cell(k), first.table.filteredData);
      HeaderClickSorts(first.table, k);
    }
  }

  /** Sorting by a column no record has keeps the order. */
  lemma SortByMissingColumnKeepsOrder(t: Table, k: string)
    requires k != ""
    requires forall i :: 0 <= i < |t.filteredData| ==> !t.filteredData[i].Null? && Member(t.filteredData[i], k).None?
    ensures OnHeaderClick(t, Some(k)).table.filteredData == t.filteredData
  {
    var dir := Select(t.sortConfig, Some(k)).direction;
    assert Null !in t.filteredData;
    SortByAllEqual(t.filteredData, Cell(k), dir);
  }

  // ---------------------------------------------------------------------
  // Pages

  /** The page count. */
  function PageCount(t: Table): int
    requires t.rows > 0
  {
    TablePages(t.pagination, t.serverSide, |t.filteredData|, t.totalRows, t.rows)
  }

  /** The records the table body shows. */
  function Visible(t: Table): seq<Value>
    requires t.rows > 0
  {
    TableRows(t.filteredData, t.pagination, t.serverSide, t.currentPage, t.rows)
  }

  /** In client mode every page up to the page count shows a record when
      there are any. */
  lemma VisibleNonEmpty(t: Table)
    requires t.rows > 0 && t.pagination && !t.serverSide
    requires |t.filteredData| > 0 && 1 <= t.currentPage <= PageCount(t)
    ensures |Visible(t)| > 0
  {
    ClientPageNonEmpty(t.filteredData, t.currentPage, t.rows);
  }

  /** The pagination control; nothing without pagination. */
  function Controls(t: Table): Option<seq<Control>>
    requires t.rows > 0
  {
    TableControls(t.pagination, t.currentPage, PageCount(t))
  }

  /** A click on an enabled button leading to `page`: the table moves
      there; in server mode it fetches that page, without the search
      term, and in client mode it re-renders. */
  function Click(t: Table, page: int): (s: Step)
    ensures s.table == t.(currentPage := page)
    ensures t.serverSide ==> s.effect == Fetch(Request(page, ""))
    ensures !t.serverSide ==> s.effect == Quiet
  {
    Step(t.(currentPage := page), if t.serverSide then Fetch(Request(page, "")) else Quiet)
  }

  /** From a page within range, every enabled button of the control leads
      to a page within range, so clicking alone never leaves the pages. */
  lemma ClickStaysInRange(t: Table, k: int)
    requires t.rows > 0 && t.pagination && 1 <= t.currentPage <= PageCount(t)
    requires 0 <= k < |Controls(t).value|
    requires Controls(t).value[k].Button? && !Controls(t).value[k].disabled
    ensures var u := Click(t, Controls(t).value[k].target).table;
            1 <= u.currentPage <= PageCount(u)
  {
    TableControlTargets(t.currentPage, PageCount(t), k);
  }

  /** `reload()`: the whole of `data` again, from page 1. */
  function Reload(t: Table): (s: Step)
    ensures s.table.filteredData == t.data && s.table.currentPage == 1 && s.effect == Quiet
    ensures s.table.(filteredData := t.filteredData, currentPage := t.currentPage) == t
  {
    Step(t.(filteredData := t.data, currentPage := 1), Quiet)
  }

  /** Reloading twice is reloading once. */
  lemma ReloadIdempotent(t: Table)
    ensures Reload(Reload(t).table) == Reload(t)
  {
  }

  /** Nothing keeps the current page within the page count: a client-mode
      load of fewer rows leaves the table on a page past the last, showing
      nothing, while a click on "»" would move it further out. */
  lemma LoadCanStrandPage(t: Table)
    requires t.rows > 0 && t.pagination && !t.serverSide && t.currentPage >= 2
    ensures var u := Load(t, Ok(Arr([])), None).table;
            PageCount(u) == 1 && u.currentPage > PageCount(u) && Visible(u) == []
  {
    var u := Load(t, Ok(Arr([])), None).table;
    assert u.filteredData == [];
  }
}

=== FILE: json.dfy ===
/** Parsed JSON values as the table code sees them, and the JavaScript
    operations it applies to them: truthiness, `Object.values`, property
    access, `getArrayFromData` and `flattenValues`. An object's fields are
    listed in the object's own property-enumeration order, the order that
    `Object.values` and `for…in` visit them in. */
module Json {

  import opened Maybe
  import opened Text

  datatype Value =
    | Null
    | Bool(b: bool)
    | Int(i: int)
    | Str(s: string)
    | Arr(items: seq<Value>)
    | Obj(fields: seq<Field>)

  datatype Field = Field(name: string, value: Value)

  /** `typeof v === "object" && v !== null`. */
  predicate IsObjectLike(v: Value) {
    v.Arr? || v.Obj?
  }

  /** JavaScript truthiness of a JSON value. */
  predicate Truthy(v: Value) {
    match v
    case Null => false
    case Bool(b) => b
    case Int(i) => i != 0
    case Str(s) => s != []
    case _ => true
  }

  /** The string keys JavaScript treats as array indices: the canonical
      decimal form of an integer below 2^32 - 1. */
  const MaxIndex: nat := 0xFFFF_FFFE

  function CanonicalIndex(key: string): (r: Option<nat>)
    ensures r.Some? ==> r.value <= MaxIndex && NatToString(r.value) == key
  {
    if |key| > 0 && AllDigits(key) && (|key| == 1 || key[0] != '0') then
      var n := ParseNat(key);
      if n <= MaxIndex then
        CanonicalDigits(key);
        Some(n)
      else None
    else None
  }

  /** A canonical digit string is the formatting of its own value. */
  lemma {:induction false} CanonicalDigits(key: string)
    requires |key| > 0 && AllDigits(key) && (|key| == 1 || key[0] != '0')
    ensures NatToString(ParseNat(key)) == key
    decreases |key|
  {
    if |key| > 1 {
      var p := key[..|key| - 1];
      assert AllDigits(p);
      if |p| > 1 {
        assert p[0] == key[0];
      }
      CanonicalDigits(p);
      var n := ParseNat(key);
      assert n / 10 == ParseNat(p) && n % 10 == DigitValue(key[|key| - 1]);
      assert p[0] == key[0];
      assert ParseNat(p) != 0;
      assert key == p + [key[|key| - 1]];
    }
  }

  /** Every small number's decimal form is recognised as an index. */
  lemma CanonicalIndexOfNat(n: nat)
    requires n <= MaxIndex
    ensures CanonicalIndex(NatToString(n)) == Some(n)
  {
    ParseNatToString(n);
  }

  /** `Object.values(v)` for a value other than `null` (for `null` it
      throws). A string's values are its characters. */
  function Values(v: Value): (r: seq<Value>)
    requires !v.Null?
    ensures v.Arr? ==> r == v.items
    ensures v.Obj? ==> |r| == |v.fields| && forall i :: 0 <= i < |r| ==> r[i] == v.fields[i].value
    ensures v.Str? ==> |r| == |v.s| && forall i :: 0 <= i < |r| ==> r[i] == Str([v.s[i]])
    ensures v.Int? || v.Bool? ==> r == []
  {
    if v.Arr? then v.items
    else if v.Obj? then seq(|v.fields|, i requires 0 <= i < |v.fields| => v.fields[i].value)
    else if v.Str? then seq(|v.s|, i requires 0 <= i < |v.s| => Str([v.s[i]]))
    else []
  }

  /** The first field called `name`. */
  function FieldNamed(fields: seq<Field>, name: string): (r: Option<Value>)
    ensures r.Some? <==> exists i :: 0 <= i < |fields| && fields[i].name == name
    ensures r.Some? ==> exists i :: 0 <= i < |fields| && fields[i].name == name && fields[i].value == r.value
  {
    if |fields| == 0 then None
    else if fields[0].name == name then Some(fields[0].value)
    else
      var r := FieldNamed(fields[1..], name);
      assert forall i :: 0 <= i < |fields| - 1 ==> fields[1..][i] == fields[i + 1];
      r
  }

  /** `v[key]` for a value other than `null` (for `null` it throws). */
  function Member(v: Value, key: string): (r: Option<Value>)
    requires !v.Null?
    ensures v.Int? || v.Bool? ==> r == None
  {
    if v.Obj? then FieldNamed(v.fields, key)
    else if v.Arr? then
      var k := CanonicalIndex(key);
      if k.Some? && k.value < |v.items| then Some(v.items[k.value]) else None
    else if v.Str? then
      var k := CanonicalIndex(key);
      if k.Some? && k.value < |v.s| then Some(Str([v.s[k.value]])) else None
    else None
  }

  /** The position of the first array-valued field. */
  function FirstArrayField(fields: seq<Field>): (r: Option<nat>)
    ensures r.Some? ==> r.value < |fields| && fields[r.value].value.Arr?
    ensures r.Some? ==> forall k :: 0 <= k < r.value ==> !fields[k].value.Arr?
    ensures r.None? ==> forall k :: 0 <= k < |fields| ==> !fields[k].value.Arr?
  {
    if |fields| == 0 then None
    else if fields[0].value.Arr? then Some(0)
    else
      match FirstArrayField(fields[1..])
      case Some(i) => Some(i + 1)
      case None => None
  }

  /** `getArrayFromData(v)`: an array is copied; for an object, the first
      array-valued property in enumeration order is copied; anything else
      gives the empty array. */
  function GetArray(v: Value): (r: seq<Value>)
    ensures v.Arr? ==> r == v.items
    ensures forall i :: v.Obj? && 0 <= i < |v.fields| && v.fields[i].value.Arr?
                        && (forall k :: 0 <= k < i ==> !v.fields[k].value.Arr?)
                        ==> r == v.fields[i].value.items
    ensures v.Obj? && (forall k :: 0 <= k < |v.fields| ==> !v.fields[k].value.Arr?) ==> r == []
    ensures !v.Arr? && !v.Obj? ==> r == []
  {
    match v
    case Arr(items) => items
    case Obj(fields) =>
      (match FirstArrayField(fields)
       case Some(i) => fields[i].value.items
       case None => [])
    case _ => []
  }

  /** `getArrayFromData(x)` where `x` may be `undefined`: a `for…in` over
      `undefined` visits nothing. */
  function GetArrayOf(x: Option<Value>): (r: seq<Value>)
    ensures x.None? ==> r == []
    ensures x.Some? ==> r == GetArray(x.value)
  {
    match x
    case Some(v) => GetArray(v)
    case None => []
  }

  /** `flattenValues(v)` for a value other than `null`: the values of `v`,
      with every nested array or object replaced by its own flattening. */
  function Leaves(v: Value): (r: seq<Value>)
    requires !v.Null?
    ensures forall i :: 0 <= i < |r| ==> !IsObjectLike(r[i])
    decreases v, 0
  {
    if v.Arr? then LeavesOfItems(v.items)
    else if v.Obj? then LeavesOfFields(v.fields)
    else Values(v)
  }

  function LeavesOfItems(items: seq<Value>): (r: seq<Value>)
    ensures forall i :: 0 <= i < |r| ==> !IsObjectLike(r[i])
    decreases items
  {
    if |items| == 0 then []
    else LeafOrLeaves(items[0]) + LeavesOfItems(items[1..])
  }

  function LeavesOfFields(fields: seq<Field>): (r: seq<Value>)
    ensures forall i :: 0 <= i < |r| ==> !IsObjectLike(r[i])
    decreases fields
  {
    if |fields| == 0 then []
    else LeafOrLeaves(fields[0].value) + LeavesOfFields(fields[1..])
  }

  /** One value's contribution to a flattening: itself when it is not an
      object, its leaves otherwise. */
  function LeafOrLeaves(v: Value): (r: seq<Value>)
    ensures forall i :: 0 <= i < |r| ==> !IsObjectLike(r[i])
    decreases v, 1
  {
    if IsObjectLike(v) then Leaves(v) else [v]
  }

  /** A scalar value is a leaf of any array that holds it. */
  lemma {:induction false} ScalarItemIsLeaf(items: seq<Value>, k: nat)
    requires k < |items| && !IsObjectLike(items[k])
    ensures items[k] in LeavesOfItems(items)
    decreases items
  {
    if k > 0 {
      ScalarItemIsLeaf(items[1..], k - 1);
    }
  }

  /** A scalar property value is a leaf of the object that holds it. */
  lemma {:induction false} ScalarFieldIsLeaf(fields: seq<Field>, k: nat)
    requires k < |fields| && !IsObjectLike(fields[k].value)
    ensures fields[k].value in LeavesOfFields(fields)
    decreases fields
  {
    if k > 0 {
      ScalarFieldIsLeaf(fields[1..], k - 1);
    }
  }

  /** The leaves of a nested array or object are leaves of the object that
      holds it. */
  lemma {:induction false} NestedFieldLeaves(fields: seq<Field>, k: nat, x: Value)
    requires k < |fields| && IsObjectLike(fields[k].value) && x in Leaves(fields[k].value)
    ensures x in LeavesOfFields(fields)
    decreases fields
  {
    if k > 0 {
      NestedFieldLeaves(fields[1..], k - 1, x);
    }
  }

  /** `x` is one of the values `flattenValues(v)` can reach: an item or a
      property value of `v` that is not an array or object, one found
      inside a nested array or object, or, for a string `v`, one of its
      characters (`Object.values` splits a string). */
  ghost predicate Within(x: Value, v: Value)
    decreases v, 0
  {
    match v
    case Arr(items) => exists i | 0 <= i < |items| :: HeldBy(x, items[i])
    case Obj(fields) => exists i | 0 <= i < |fields| :: HeldBy(x, fields[i].value)
    case Str(s) => exists i | 0 <= i < |s| :: x == Str([s[i]])
    case _ => false
  }

  /** `x` is the member `w` itself, or lies within it when `w` is an array
      or object. */
  ghost predicate HeldBy(x: Value, w: Value)
    decreases w, 1
  {
    if IsObjectLike(w) then Within(x, w) else x == w
  }

  /** The flattening holds exactly the scalars that occur within the
      record: nothing is invented and nothing is lost. */
  lemma {:induction false} LeavesExact(x: Value, v: Value)
    requires !v.Null?
    ensures x in Leaves(v) <==> !IsObjectLike(x) && Within(x, v)
    decreases v, 0
  {
    match v
    case Arr(items) => ItemsExact(x, items);
    case Obj(fields) => FieldsExact(x, fields);
    case Str(s) =>
      if x in Leaves(v) {
        var k :| 0 <= k < |Values(v)| && Values(v)[k] == x;
        assert x == Str([s[k]]);
      }
      if Within(x, v) {
        var k :| 0 <= k < |s| && x == Str([s[k]]);
        assert Values(v)[k] == x;
      }
    case _ =>
  }

  lemma {:induction false} ItemsExact(x: Value, items: seq<Value>)
    ensures x in LeavesOfItems(items) <==>
              !IsObjectLike(x) && exists i | 0 <= i < |items| :: HeldBy(x, items[i])
    decreases items
  {
    if |items| > 0 {
      HeldExact(x, items[0]);
      ItemsExact(x, items[1..]);
      if exists i | 0 <= i < |items| :: HeldBy(x, items[i]) {
        var i :| 0 <= i < |items| && HeldBy(x, items[i]);
        if i > 0 { assert HeldBy(x, items[1..][i - 1]); }
      }
      if exists i | 0 <= i < |items[1..]| :: HeldBy(x, items[1..][i]) {
        var i :| 0 <= i < |items[1..]| && HeldBy(x, items[1..][i]);
        assert HeldBy(x, items[i + 1]);
      }
    }
  }

  lemma {:induction false} FieldsExact(x: Value, fields: seq<Field>)
    ensures x in LeavesOfFields(fields) <==>
              !IsObjectLike(x) && exists i | 0 <= i < |fields| :: HeldBy(x, fields[i].value)
    decreases fields
  {
    if |fields| > 0 {
      HeldExact(x, fields[0].value);
      FieldsExact(x, fields[1..]);
      if exists i | 0 <= i < |fields| :: HeldBy(x, fields[i].value) {
        var i :| 0 <= i < |fields| && HeldBy(x, fields[i].value);
        if i > 0 { assert HeldBy(x, fields[1..][i - 1].value); }
      }
      if exists i | 0 <= i < |fields[1..]| :: HeldBy(x, fields[1..][i].value) {
        var i :| 0 <= i < |fields[1..]| && HeldBy(x, fields[1..][i].value);
        assert HeldBy(x, fields[i + 1].value);
      }
    }
  }

  lemma {:induction false} HeldExact(x: Value, w: Value)
    ensures x in LeafOrLeaves(w) <==> !IsObjectLike(x) && HeldBy(x, w)
    decreases w, 1
  {
    if IsObjectLike(w) {
      LeavesExact(x, w);
    }
  }

  /** `String(v ?? "")` for a flattened leaf. */
  function LeafText(v: Value): string {
    match v
    case Null => ""
    case Bool(b) => if b then "true" else "false"
    case Int(i) => IntToString(i)
    case Str(s) => s
    case _ => ""
  }
}

=== FILE: legacy_table.dfy ===
/** `DataTableLib` of 1.js, the earlier version of the table. It differs
    from the later one in four ways: it builds the server-side URL
    itself, a client-mode load keeps the parsed body as it is in `data`,
    a server-mode search only fetches page 1 (the current page stays),
    and a header sorts by the position of its column among a record's
    values. */
module LegacyTable {

  import opened Maybe
  import opened Text
  import opened Json
  import opened Sorting
  import opened Paging
  import opened Uri
  import opened Records
  import opened Seqs

  // ---------------------------------------------------------------------
  // State

  /** `th.dataset.key || index`: a header's non-empty `data-key`, or else
      its position among the headers. */
  datatype HeaderKey = Named(name: string) | Position(index: nat)

  function HeaderKeyOf(dataKey: Option<string>, index: nat): (k: HeaderKey)
    ensures k.Named? <==> dataKey.Some? && dataKey.value != ""
    ensures k.Named? ==> k.name == dataKey.value
    ensures k.Position? ==> k.index == index
  {
    if dataKey.Some? && dataKey.value != "" then Named(dataKey.value) else Position(index)
  }

  /** The table's state; `data` holds a JSON value, which need not be an
      array. */
  datatype Table = Table(
    data: Value,
    filteredData: seq<Value>,
    currentPage: int,
    rows: int,
    totalRows: int,
    serverSide: bool,
    pagination: bool,
    baseApi: string,
    sortConfig: SortConfig<HeaderKey>)

  /** The constructor options the model reads: the API URL, and the
      settings, `None` standing for an option left out. */
  datatype Options = Options(
    api: string,
    rows: Option<int>,
    currentPage: Option<int>,
    totalRows: Option<int>,
    serverSide: Option<bool>,
    pagination: Option<bool>)

  /** `new DataTableLib(options)`: the options over the defaults of 5 rows
      per page, page 1, client mode with pagination and a total of 0;
      `data` is `[]` and there is no sort column yet. */
  function Create(o: Options): (t: Table)
    ensures t.data == Arr([]) && t.filteredData == []
    ensures t.baseApi == o.api
    ensures t.sortConfig.key == None && t.sortConfig.direction == Asc
    ensures o.rows.None? ==> t.rows == 5
    ensures o.currentPage.None? ==> t.currentPage == 1
    ensures o.totalRows.None? ==> t.totalRows == 0
    ensures o.serverSide.None? ==> !t.serverSide
    ensures o.pagination.None? ==> t.pagination
    ensures o.rows.Some? ==> t.rows == o.rows.value
    ensures o.currentPage.Some? ==> t.currentPage == o.currentPage.value
    ensures o.totalRows.Some? ==> t.totalRows == o.totalRows.value
    ensures o.serverSide.Some? ==> t.serverSide == o.serverSide.value
    ensures o.pagination.Some? ==> t.pagination == o.pagination.value
  {
    Table(Arr([]), [], o.currentPage.GetOr(1), o.rows.GetOr(5), o.totalRows.GetOr(0),
          o.serverSide.GetOr(false), o.pagination.GetOr(true), o.api, SortConfig(None, Asc))
  }

  /** What the table does besides changing its state: nothing visible
      beyond re-rendering, fetch a URL, show a message in its error
      element, or let an exception escape the event handler. */
  datatype Effect =
    | Quiet
    | Fetch(url: string)
    | ShowError(message: string)
    | Uncaught(message: string)

  datatype Step = Step(table: Table, effect: Effect)

  /** The `TypeError` messages of spreading, and of calling `filter` on,
      a `data` that is not an array. */
  const NotIterableMessage: string := "this.data is not iterable"
  const NullNotIterableMessage: string :=
    "object null is not iterable (cannot read property Symbol(Symbol.iterator))"
  const NoFilterMessage: string := "this.data.filter is not a function"

  /** Why `[...data]` throws, for a `data` that cannot be spread. */
  function SpreadError(v: Value): string {
    if v.Null? then NullNotIterableMessage else NotIterableMessage
  }

  /** Why `data.filter(...)` throws, for a `data` that is not an array. */
  function FilterError(v: Value): string {
    if v.Null? then NullPropertyMessage("filter") else NoFilterMessage
  }

  // ---------------------------------------------------------------------
  // The server-side URL

  /** "&" when the base already has a query, "?" otherwise. */
  function Separator(baseApi: string): (c: char)
    ensures c == '&' <==> '?' in baseApi
    ensures c == '?' <==> '?' !in baseApi
  {
    if '?' in baseApi then '&' else '?'
  }

  /** The query `buildServerSideUrl` appends after the separator. */
  function Query(page: int, rows: int, searchTerm: string): string {
    "page=" + IntToString(page) + "&" + "limit=" + IntToString(rows)
    + (if searchTerm != "" then "&search=" + Encode(searchTerm) else "")
  }

  /** `buildServerSideUrl(page, searchTerm)`. */
  function BuildServerSideUrl(baseApi: string, page: int, rows: int, searchTerm: string): (url: string)
    ensures |url| > |baseApi| && url[..|baseApi|] == baseApi
    ensures url[|baseApi|] == '&' <==> '?' in baseApi
    ensures url[|baseApi|] == '?' <==> '?' !in baseApi
  {
    var url := baseApi + [Separator(baseApi)] + Query(page, rows, searchTerm);
    assert url[..|baseApi|] == baseApi;
    url
  }

  /** The parameters the query carries, read back: split at "&" it gives
      `page`, `limit` and, exactly when there is a search term, `search`;
      the numbers read back as the page and the page size, and the
      search value decodes to the term. */
  lemma UrlParameters(baseApi: string, page: int, rows: int, searchTerm: string)
    ensures var url := BuildServerSideUrl(baseApi, page, rows, searchTerm);
            Split(url[|baseApi| + 1..], '&') == Parameters(page, rows, searchTerm)
    ensures Parameters(page, rows, searchTerm)[0] == "page=" + IntToString(page)
    ensures Parameters(page, rows, searchTerm)[1] == "limit=" + IntToString(rows)
    ensures |Parameters(page, rows, searchTerm)| == 3 <==> searchTerm != ""
    ensures |Parameters(page, rows, searchTerm)| == 3 ==>
              Parameters(page, rows, searchTerm)[2] == "search=" + Encode(searchTerm)
    ensures ToNumber(IntToString(page)) == Some(page)
    ensures ToNumber(IntToString(rows)) == Some(rows)
    ensures Decode(Encode(searchTerm)) == Some(searchTerm)
  {
    var url := BuildServerSideUrl(baseApi, page, rows, searchTerm);
    assert url[|baseApi| + 1..] == Query(page, rows, searchTerm);
    QueryJoins(page, rows, searchTerm);
    SplitJoin(Parameters(page, rows, searchTerm), '&');
    ToNumberIntToString(page);
    ToNumberIntToString(rows);
    DecodeEncode(searchTerm);
  }

  /** The query's parameters, each `name=value`. */
  function Parameters(page: int, rows: int, searchTerm: string): (ps: seq<string>)
    ensures 2 <= |ps| <= 3
  {
    ["page=" + IntToString(page), "limit=" + IntToString(rows)]
    + (if searchTerm != "" then ["search=" + Encode(searchTerm)] else [])
  }

  /** The query is its parameters joined by "&", none of which holds one. */
  lemma QueryJoins(page: int, rows: int, searchTerm: string)
    ensures forall i :: 0 <= i < |Parameters(page, rows, searchTerm)| ==>
              '&' !in Parameters(page, rows, searchTerm)[i]
    ensures Join(Parameters(page, rows, searchTerm), '&') == Query(page, rows, searchTerm)
  {
    var pg, lm := IntToString(page), IntToString(rows);
    NoAmpersand("page=", pg);
    NoAmpersand("limit=", lm);
    if searchTerm != "" {
      SearchNoAmpersand(searchTerm);
      JoinWithSearch(pg, lm, Encode(searchTerm));
    } else {
      JoinWithoutSearch(pg, lm);
    }
  }

  lemma JoinWithoutSearch(pg: string, lm: string)
    ensures Join(["page=" + pg, "limit=" + lm], '&') == "page=" + pg + "&" + "limit=" + lm
  {
    var p, l := "page=" + pg, "limit=" + lm;
    assert [p, l][1..] == [l];
  }

  lemma JoinWithSearch(pg: string, lm: string, term: string)
    ensures Join(["page=" + pg, "limit=" + lm, "search=" + term], '&')
            == "page=" + pg + "&" + "limit=" + lm + ("&search=" + term)
  {
    var p, l, q := "page=" + pg, "limit=" + lm, "search=" + term;
    assert [p, l, q][1..] == [l, q];
    assert [l, q][1..] == [q];
    assert Join([l, q], '&') == l + "&" + q;
    assert Join([p, l, q], '&') == p + "&" + (l + "&" + q);
    assert p + "&" + (l + "&" + q) == p + "&" + l + ("&" + q);
    assert "&search=" + term == "&" + q;
  }

  lemma SearchNoAmpersand(searchTerm: string)
    ensures '&' !in "search=" + Encode(searchTerm)
  {
    var q := "search=" + Encode(searchTerm);
    forall i | 0 <= i < |q| ensures q[i] != '&' {
      if i >= 7 {
        assert q[i] == Encode(searchTerm)[i - 7];
      }
    }
  }

  /** A parameter name followed by a number holds no "&". */
  lemma NoAmpersand(name: string, digits: string)
    requires '&' !in name
    requires |digits| >= 1 && forall k :: 0 < k < |digits| ==> IsDigit(digits[k])
    requires digits[0] == '-' || IsDigit(digits[0])
    ensures '&' !in name + digits
  {
    var s := name + digits;
    forall i | 0 <= i < |s| ensures s[i] != '&' {
      if i >= |name| {
        assert s[i] == digits[i - |name|];
      }
    }
  }

  /** The URL a fetch of `page` with `searchTerm` goes to: the built URL
      in server mode, the API address otherwise. */
  function FetchUrl(t: Table, page: int, searchTerm: string): (url: string)
    ensures !t.serverSide ==> url == t.baseApi
    ensures t.serverSide ==>
              |url| > |t.baseApi| && url[..|t.baseApi|] == t.baseApi
              && Split(url[|t.baseApi| + 1..], '&') == Parameters(page, t.rows, searchTerm)
  {
    if t.serverSide then
      UrlParameters(t.baseApi, page, t.rows, searchTerm);
      BuildServerSideUrl(t.baseApi, page, t.rows, searchTerm)
    else t.baseApi
  }

  // ---------------------------------------------------------------------
  // A fetch result arriving

  /** `fetchData` from the moment the fetch settles. In server mode the
      view becomes the array found in `result.data` and `totalRows` the
      reported total or 0, while `data` stays; a `null` body throws on
      reading `data` before anything is assigned. In client mode `data`
      becomes the body as it is and the view the array found in it.
      Every error is shown, an abort included. */
  function Load(t: Table, resp: Response): (s: Step)
    ensures resp.Ok? && t.serverSide && !resp.body.Null? ==>
              s.effect == Quiet && s.table.data == t.data
              && s.table.filteredData == GetArrayOf(Member(resp.body, "data"))
              && s.table.totalRows == ReportedTotal(resp.body).GetOr(0)
    ensures resp.Ok? && t.serverSide && resp.body.Null? ==>
              s == Step(t, ShowError(NullPropertyMessage("data")))
    ensures resp.Ok? && !t.serverSide ==>
              s.effect == Quiet && s.table.data == resp.body && s.table.filteredData == GetArray(resp.body)
              && s.table.totalRows == t.totalRows
    ensures resp.HttpError? ==> s == Step(t, ShowError("HTTP error " + IntToString(resp.status)))
    ensures resp.Failed? ==> s == Step(t, ShowError(resp.message))
    ensures s.table.currentPage == t.currentPage && s.table.rows == t.rows && s.table.baseApi == t.baseApi
    ensures s.table.serverSide == t.serverSide && s.table.pagination == t.pagination
    ensures s.table.sortConfig == t.sortConfig
  {
    match resp
    case HttpError(status) => Step(t, ShowError("HTTP error " + IntToString(status)))
    case Failed(_, message) => Step(t, ShowError(message))
    case Ok(body) =>
      if !t.serverSide then Step(t.(data := body, filteredData := GetArray(body)), Quiet)
      else if body.Null? then Step(t, ShowError(NullPropertyMessage("data")))
      else
        Step(t.(filteredData := GetArrayOf(Member(body, "data")),
                totalRows := ReportedTotal(body).GetOr(0)), Quiet)
  }

  /** A client-mode load as evidently intended: `data` keeps the record
      array found in the body, as the view does, so that a later search
      or reload works on records. */
  function LoadCorrected(t: Table, resp: Response): (s: Step)
    ensures resp.Ok? && !t.serverSide ==>
              s.effect == Quiet && s.table.data == Arr(GetArray(resp.body))
              && s.table.filteredData == GetArray(resp.body)
    ensures !(resp.Ok? && !t.serverSide) ==> s == Load(t, resp)
  {
    if resp.Ok? && !t.serverSide then
      var rows := GetArray(resp.body);
      Step(t.(data := Arr(rows), filteredData := rows), Quiet)
    else Load(t, resp)
  }

  // ---------------------------------------------------------------------
  // Search and reload

  /** `[...this.data]`: an array's items or a string's characters; other
      values cannot be spread. */
  function Spread(v: Value): (r: Option<seq<Value>>)
    ensures v.Arr? ==> r == Some(v.items)
    ensures v.Str? ==> r.Some? && |r.value| == |v.s|
                       && forall i :: 0 <= i < |v.s| ==> r.value[i] == Str([v.s[i]])
    ensures !v.Arr? && !v.Str? ==> r.None?
  {
    if v.Arr? then Some(v.items)
    else if v.Str? then Some(Values(v))
    else None
  }

  /** `search(keyword)`. In server mode it only fetches page 1 for the
      keyword; the table, its current page included, stays as it is. In
      client mode a blank keyword spreads `data` into the view and any
      other filters `data`, which must then be an array; the view
      returns to page 1. */
  function Search(t: Table, keyword: string): (s: Step)
    ensures t.serverSide ==> s == Step(t, Fetch(BuildServerSideUrl(t.baseApi, 1, t.rows, keyword)))
    ensures !t.serverSide && SearchKey(keyword) == "" ==>
              if Spread(t.data).Some? then s == Step(t.(filteredData := Spread(t.data).value, currentPage := 1), Quiet)
              else s == Step(t, Uncaught(SpreadError(t.data)))
    ensures !t.serverSide && SearchKey(keyword) != "" && !t.data.Arr? ==>
              s == Step(t, Uncaught(FilterError(t.data)))
    ensures !t.serverSide && t.data.Arr? ==>
              if SearchView(t.data.items, keyword).Some? then
                s == Step(t.(filteredData := SearchView(t.data.items, keyword).value, currentPage := 1), Quiet)
              else s == Step(t, Uncaught(NullObjectMessage))
  {
    if t.serverSide then Step(t, Fetch(BuildServerSideUrl(t.baseApi, 1, t.rows, keyword)))
    else if SearchKey(keyword) == "" then
      match Spread(t.data)
      case None => Step(t, Uncaught(SpreadError(t.data)))
      case Some(all) => Step(t.(filteredData := all, currentPage := 1), Quiet)
    else if !t.data.Arr? then Step(t, Uncaught(FilterError(t.data)))
    else
      match SearchView(t.data.items, keyword)
      case None => Step(t, Uncaught(NullObjectMessage))
      case Some(view) => Step(t.(filteredData := view, currentPage := 1), Quiet)
  }

  /** White space around the keyword only matters to the server, which
      receives the keyword as typed. */
  lemma SearchPadded(t: Table, pre: string, keyword: string, post: string)
    requires !t.serverSide
    requires AllSpace(pre) && AllSpace(post)
    ensures Search(t, pre + keyword + post) == Search(t, keyword)
  {
    PaddedKey(pre, keyword, post);
  }

  /** In client mode a blank keyword is a reload. */
  lemma BlankSearchReloads(t: Table, keyword: string)
    requires !t.serverSide && AllSpace(keyword)
    ensures Search(t, keyword) == Reload(t)
  {
    BlankKey(keyword);
  }

  /** A client-mode search keeps exactly the records of `data` that match
      the keyword, in their order in `data`. */
  lemma SearchSelects(t: Table, keyword: string)
    requires !t.serverSide && t.data.Arr? && !AllSpace(keyword) && Null !in t.data.items
    ensures Search(t, keyword).effect == Quiet
    ensures var key := SearchKey(keyword);
            SelectsFrom(Search(t, keyword).table.filteredData, t.data.items, Matcher(key),
                        PositionsFrom(t.data.items, Matcher(key), 0), 0)
  {
    Records.SearchSelects(t.data.items, keyword);
  }

  /** After a server-mode search the table still shows the page it was on
      in its controls, although the fetch asked for page 1. */
  lemma ServerSearchKeepsPage(t: Table, keyword: string)
    requires t.serverSide
    ensures Search(t, keyword).table.currentPage == t.currentPage
    ensures Search(t, keyword).effect == Fetch(FetchUrl(t, 1, keyword))
  {
  }

  /** `reload()`: `data` spread into the view, from page 1. */
  function Reload(t: Table): (s: Step)
    ensures Spread(t.data).Some? ==>
              s.effect == Quiet && s.table.filteredData == Spread(t.data).value && s.table.currentPage == 1
    ensures Spread(t.data).None? ==> s == Step(t, Uncaught(SpreadError(t.data)))
    ensures s.table.(filteredData := t.filteredData, currentPage := t.currentPage) == t
  {
    match Spread(t.data)
    case None => Step(t, Uncaught(SpreadError(t.data)))
    case Some(all) => Step(t.(filteredData := all, currentPage := 1), Quiet)
  }

  /** Reloading twice is reloading once. */
  lemma ReloadIdempotent(t: Table)
    ensures Reload(Reload(t).table) == Reload(t)
  {
  }

  /** As written, a client-mode load of an object that wraps the records
      shows them, but `data` keeps the wrapper: reload and any search for
      a non-blank keyword then throw. */
  lemma WrappedLoadBreaksSearch(t: Table, rows: seq<Value>, keyword: string)
    requires !t.serverSide && !AllSpace(keyword)
    ensures var body := Obj([Field("items", Arr(rows))]);
            var u := Load(t, Ok(body)).table;
            u.filteredData == rows
            && Reload(u).effect == Uncaught(NotIterableMessage)
            && Search(u, keyword).effect == Uncaught(NoFilterMessage)
  {
    var body := Obj([Field("items", Arr(rows))]);
    assert body.fields[0].value.Arr?;
  }

  /** With the corrected load, reload shows again exactly the records the
      load showed, and a search works on them. */
  lemma CorrectedLoadKeepsSearch(t: Table, body: Value, keyword: string)
    requires !t.serverSide
    ensures var u := LoadCorrected(t, Ok(body)).table;
            Reload(u).effect == Quiet && Reload(u).table.filteredData == u.filteredData
            && (Null !in u.filteredData ==> Search(u, keyword).effect == Quiet)
  {
  }

  // ---------------------------------------------------------------------
  // Sorting

  /** `Object.values(row)[key]`: a position picks that value; a name picks
      one only when it is the decimal form of a position. */
  function ValueAt(values: seq<Value>, key: HeaderKey): (r: Option<Value>)
    ensures key.Position? ==> (r.Some? <==> key.index < |values|)
    ensures key.Position? && key.index < |values| ==> r == Some(values[key.index])
    ensures key.Named? && CanonicalIndex(key.name).None? ==> r.None?
    ensures key.Named? && CanonicalIndex(key.name).Some? ==>
              (r.Some? <==> CanonicalIndex(key.name).value < |values|)
    ensures key.Named? && CanonicalIndex(key.name).Some? && CanonicalIndex(key.name).value < |values| ==>
              r == Some(values[CanonicalIndex(key.name).value])
  {
    var i := if key.Position? then Some(key.index) else CanonicalIndex(key.name);
    if i.Some? && i.value < |values| then Some(values[i.value]) else None
  }

  function PositionCell(key: HeaderKey): Value -> Option<Value> {
    (row: Value) => if row.Null? then None else ValueAt(Values(row), key)
  }

  /** A click on a header with key `key`: the direction toggles or
      resets, the key is recorded, and the view is sorted by the value at
      that position of each record. Two or more records are each compared,
      so a `null` among them makes `Object.values` throw, and the order
      is then left as it was. */
  function OnHeaderClick(t: Table, key: HeaderKey): (s: Step)
    ensures s.table.sortConfig == Select(t.sortConfig, key)
    ensures s.table == t.(filteredData := s.table.filteredData, sortConfig := s.table.sortConfig)
    ensures multiset(s.table.filteredData) == multiset(t.filteredData)
    ensures s.effect != Quiet <==> |t.filteredData| >= 2 && Null in t.filteredData
    ensures s.effect != Quiet ==> s.table.filteredData == t.filteredData && s.effect == Uncaught(NullObjectMessage)
  {
    var cfg := Select(t.sortConfig, key);
    if |t.filteredData| >= 2 && Null in t.filteredData then
      Step(t.(sortConfig := cfg), Uncaught(NullObjectMessage))
    else
      Step(t.(sortConfig := cfg, filteredData := SortBy(t.filteredData, PositionCell(key), cfg.direction)), Quiet)
  }

  /** On a column whose values are all numbers, all strings or all
      missing, the sorted view is in order. */
  lemma HeaderClickSorts(t: Table, key: HeaderKey)
    requires Null !in t.filteredData
    requires UniformColumn(t.filteredData, PositionCell(key))
    ensures var s := OnHeaderClick(t, key);
            s.effect == Quiet && SortedBy(s.table.filteredData, PositionCell(key), s.table.sortConfig.direction)
  {
    SortBySorted(t.filteredData, PositionCell(key), Select(t.sortConfig, key).direction);
  }

  /** When no record has a value at the position, every comparison is a
      tie and the order stays. */
  lemma SortByMissingPositionKeepsOrder(t: Table, key: HeaderKey)
    requires forall i :: 0 <= i < |t.filteredData| ==>
               !t.filteredData[i].Null? && ValueAt(Values(t.filteredData[i]), key).None?
    ensures OnHeaderClick(t, key).table.filteredData == t.filteredData
  {
    assert Null !in t.filteredData;
    SortByAllEqual(t.filteredData, PositionCell(key), Select(t.sortConfig, key).direction);
  }

  // ---------------------------------------------------------------------
  // Pages

  /** The page count. */
  function PageCount(t: Table): int
    requires t.rows > 0
  {
    TablePages(t.pagination, t.serverSide, |t.filteredData|, t.totalRows, t.rows)
  }

  /** The records the table body shows. */
  function Visible(t: Table): seq<Value>
    requires t.rows > 0
  {
    TableRows(t.filteredData, t.pagination, t.serverSide, t.currentPage, t.rows)
  }

  /** The pagination control; nothing without pagination. */
  function Controls(t: Table): Option<seq<Control>>
    requires t.rows > 0
  {
    TableControls(t.pagination, t.currentPage, PageCount(t))
  }

  /** A click on an enabled button leading to `page`: the table moves
      there; in server mode it fetches that page without the search term,
      in client mode it re-renders. */
  function Click(t: Table, page: int): (s: Step)
    ensures s.table == t.(currentPage := page)
    ensures t.serverSide ==> s.effect == Fetch(BuildServerSideUrl(t.baseApi, page, t.rows, ""))
    ensures !t.serverSide ==> s.effect == Quiet
  {
    Step(t.(currentPage := page), if t.serverSide then Fetch(FetchUrl(t, page, "")) else Quiet)
  }

  /** From a page within range, every enabled button of the control leads
      to a page within range. */
  lemma ClickStaysInRange(t: Table, k: int)
    requires t.rows > 0 && t.pagination && 1 <= t.currentPage <= PageCount(t)
    requires 0 <= k < |Controls(t).value|
    requires Controls(t).value[k].Button? && !Controls(t).value[k].disabled
    ensures var u := Click(t, Controls(t).value[k].target).table;
            1 <= u.currentPage <= PageCount(u)
  {
    TableControlTargets(t.currentPage, PageCount(t), k);
  }
}

=== FILE: maybe.dfy ===
/** The optional value used throughout the model: JavaScript's `undefined`
    (a missing property, an index past the end) is `None`. */
module Maybe {

  datatype Option<+T> = None | Some(value: T) {

    /** The value, or `default` when there is none (JavaScript's `??`). */
    function GetOr(default: T): T {
      match this
      case Some(v) => v
      case None => default
    }
  }
}

=== FILE: paging.dfy ===
/** Page arithmetic and the pagination control shared by both versions of
    the table: the page count, the rows a page shows, and the row of
    buttons under the table. */
module Paging {

  import opened Maybe
  import opened Seqs

  /** `Math.ceil(n / d)` for a positive divisor: the least `q` with
      `n <= q * d`. */
  function CeilDiv(n: int, d: int): (q: int)
    requires d > 0
    ensures (q - 1) * d < n <= q * d
  {
    -((-n) / d)
  }

  /** `Math.ceil(n / rows) || 1`: the number of pages needed for `n` rows,
      where a zero result (also JavaScript's `-0`) becomes 1. A negative
      `n` only arises from a server-reported total. */
  function TotalPages(n: int, rows: int): (t: int)
    requires rows > 0
    ensures n > 0 ==> t >= 1 && (t - 1) * rows < n <= t * rows
    ensures -rows < n <= 0 ==> t == 1
    ensures n <= -rows ==> t < 0 && (t - 1) * rows < n <= t * rows
  {
    var q := CeilDiv(n, rows);
    if q == 0 then 1 else q
  }

  /** For a row count `n >= 0` the page count is `max(1, ceil(n / rows))`:
      at least one page, and exactly enough pages to hold `n` rows. */
  lemma TotalPagesOfCount(n: nat, rows: int)
    requires rows > 0
    ensures TotalPages(n, rows) >= 1
    ensures n == 0 ==> TotalPages(n, rows) == 1
    ensures n > 0 ==> (TotalPages(n, rows) - 1) * rows < n <= TotalPages(n, rows) * rows
  {
  }

  /** Rows shown on page `page` in client mode: `slice(start, start + rows)`
      with `start = (page - 1) * rows`. */
  function ClientPage<T>(s: seq<T>, page: int, rows: int): (r: seq<T>)
    requires rows > 0
    ensures |r| <= rows
    ensures page == 0 ==> r == []
  {
    var start := (page - 1) * rows;
    ClientPageBounds(page, rows);
    JsSlice(s, start, start + rows)
  }

  /** The index of the first row of page `page`. */
  function PageStart(page: int, rows: int): (a: int)
    requires rows > 0
    ensures page >= 1 ==> a >= 0
  {
    ClientPageBounds(page, rows);
    (page - 1) * rows
  }

  lemma ClientPageBounds(page: int, rows: int)
    requires rows > 0
    ensures page >= 1 ==> (page - 1) * rows >= 0
  {
  }

  /** Page `page >= 1` is the run of rows from `(page - 1) * rows` up to
      `rows` further, cut off at the end of the data; past the end it is
      empty. */
  lemma ClientPageRun<T>(s: seq<T>, page: int, rows: int)
    requires rows > 0 && page >= 1
    ensures var a := (page - 1) * rows;
            ClientPage(s, page, rows)
            == s[(if a < |s| then a else |s|)..(if a + rows < |s| then a + rows else |s|)]
    ensures (page - 1) * rows >= |s| ==> ClientPage(s, page, rows) == []
  {
    ClientPageBounds(page, rows);
  }

  /** Every page up to the page count shows at least one row when there are
      rows at all. */
  lemma ClientPageNonEmpty<T>(s: seq<T>, page: int, rows: int)
    requires rows > 0 && |s| > 0
    requires 1 <= page <= TotalPages(|s|, rows)
    ensures |ClientPage(s, page, rows)| > 0
  {
    var t := TotalPages(|s|, rows);
    MulMonotone(page - 1, t - 1, rows);
    ClientPageBounds(page, rows);
    ClientPageRun(s, page, rows);
    RunNonEmpty(s, (page - 1) * rows, rows);
  }

  lemma RunNonEmpty<T>(s: seq<T>, a: int, rows: int)
    requires 0 <= a < |s| && rows > 0
    ensures |s[a..(if a + rows < |s| then a + rows else |s|)]| > 0
  {
  }

  lemma StepProduct(k: int, rows: int)
    requires k >= 1 && rows > 0
    ensures (k - 1) * rows >= 0
    ensures k * rows == (k - 1) * rows + rows
  {
  }

  lemma MulMonotone(x: int, y: int, k: int)
    requires x <= y && k > 0
    ensures x * k <= y * k
  {
  }

  /** Pages 1 to `k` shown one after another. */
  function PagesUpTo<T>(s: seq<T>, rows: int, k: nat): seq<T>
    requires rows > 0
  {
    if k == 0 then [] else PagesUpTo(s, rows, k - 1) + ClientPage(s, k, rows)
  }

  lemma {:induction false} PagesUpToPrefix<T>(s: seq<T>, rows: int, k: nat)
    requires rows > 0
    ensures PagesUpTo(s, rows, k) == s[..if k * rows < |s| then k * rows else |s|]
  {
    if k > 0 {
      var m := (k - 1) * rows;
      StepProduct(k, rows);
      var a := if m < |s| then m else |s|;
      var b := if m + rows < |s| then m + rows else |s|;
      PagesUpToPrefix(s, rows, k - 1);
      ClientPageRun(s, k, rows);
      SliceJoin(s, a, b);
    }
  }

  lemma SliceJoin<T>(s: seq<T>, a: int, b: int)
    requires 0 <= a <= b <= |s|
    ensures s[..a] + s[a..b] == s[..b]
  {
  }

  /** The pages partition the rows: showing pages 1 to the page count in
      turn shows every row exactly once, in order. */
  lemma PagesCoverRows<T>(s: seq<T>, rows: int)
    requires rows > 0
    ensures PagesUpTo(s, rows, TotalPages(|s|, rows)) == s
  {
    var t := TotalPages(|s|, rows);
    PagesUpToPrefix(s, rows, t);
    assert |s| <= t * rows;
  }

  // ---------------------------------------------------------------------
  // The pagination control

  datatype Label = Prev | Next | Page(n: int)

  /** One element of the control: a button with its label, the page a
      click moves to, and its flags, or a "..." text node. */
  datatype Control =
    | Button(caption: Label, target: int, active: bool, disabled: bool)
    | Ellipsis

  function PageButton(i: int, current: int): Control {
    Button(Page(i), i, i == current, false)
  }

  /** The numbered buttons `current - 1 .. current + 1` that lie in
      `[1, total]`. */
  function Window(c: int, t: int): seq<Control> {
    (if 0 < c - 1 <= t then [PageButton(c - 1, c)] else [])
    + (if 0 < c <= t then [PageButton(c, c)] else [])
    + (if 0 < c + 1 <= t then [PageButton(c + 1, c)] else [])
  }

  /** Page 1 when `c > 2`, then "..." when `c >= 3`. */
  function Lead(c: int): seq<Control> {
    (if c > 2 then [PageButton(1, c)] else []) + (if c >= 3 then [Ellipsis] else [])
  }

  /** "..." when `c < t - 2`, then page `t` when `c < t - 1`. */
  function Trail(c: int, t: int): seq<Control> {
    (if c < t - 2 then [Ellipsis] else []) + (if c < t - 1 then [PageButton(t, c)] else [])
  }

  /** What `renderPagination` puts between "«" and "»" for current page `c`
      of `t`: page 1 when `c > 2`, "..." when `c >= 3`, the window, "..."
      when `c < t - 2`, and page `t` when `c < t - 1`. */
  function Middle(c: int, t: int): seq<Control> {
    Lead(c) + Window(c, t) + Trail(c, t)
  }

  /** The whole control: "«" (to `c - 1`, disabled on page 1), the middle,
      "»" (to `c + 1`, disabled on the last page). */
  function Layout(c: int, t: int): seq<Control> {
    [Button(Prev, c - 1, false, c == 1)] + Middle(c, t) + [Button(Next, c + 1, false, c == t)]
  }

  predicate IsPageButton(x: Control) {
    x.Button? && x.caption.Page?
  }

  /** The pages the numbered buttons of a control lead to, in order. */
  function PageNumbers(l: seq<Control>): (r: seq<int>)
  {
    if |l| == 0 then []
    else (if IsPageButton(l[0]) then [l[0].target] else []) + PageNumbers(l[1..])
  }

  lemma {:induction false} PageNumbersAppend(a: seq<Control>, b: seq<Control>)
    ensures PageNumbers(a + b) == PageNumbers(a) + PageNumbers(b)
  {
    if |a| > 0 {
      PageNumbersAppend(a[1..], b);
      assert (a + b)[1..] == a[1..] + b;
    } else {
      assert a + b == b;
    }
  }

  predicate StrictlyIncreasing(s: seq<int>) {
    forall i, j :: 0 <= i < j < |s| ==> s[i] < s[j]
  }

  lemma PageNumbersOne(x: Control)
    ensures PageNumbers([x]) == if IsPageButton(x) then [x.target] else []
  {
    assert [x][1..] == [];
  }

  /** The pages the window's buttons lead to. */
  lemma WindowPageNumbers(c: int, t: int)
    requires 1 <= c <= t
    ensures PageNumbers(Window(c, t)) == (if c > 1 then [c - 1] else []) + [c] + (if c < t then [c + 1] else [])
  {
    var w1 := if 0 < c - 1 <= t then [PageButton(c - 1, c)] else [];
    var w2 := [PageButton(c, c)];
    var w3 := if 0 < c + 1 <= t then [PageButton(c + 1, c)] else [];
    assert Window(c, t) == w1 + w2 + w3;
    PageNumbersAppend(w1 + w2, w3);
    PageNumbersAppend(w1, w2);
    PageNumbersOne(PageButton(c, c));
    if c > 1 { PageNumbersOne(PageButton(c - 1, c)); }
    if c < t { PageNumbersOne(PageButton(c + 1, c)); }
  }

  lemma LeadPageNumbers(c: int)
    ensures PageNumbers(Lead(c)) == if c > 2 then [1] else []
  {
    if c > 2 {
      assert Lead(c) == [PageButton(1, c)] + [Ellipsis];
      PageNumbersAppend([PageButton(1, c)], [Ellipsis]);
      PageNumbersOne(PageButton(1, c));
      PageNumbersOne(Ellipsis);
    }
  }

  lemma TrailPageNumbers(c: int, t: int)
    ensures PageNumbers(Trail(c, t)) == if c < t - 1 then [t] else []
  {
    if c < t - 2 {
      assert Trail(c, t) == [Ellipsis] + [PageButton(t, c)];
      PageNumbersAppend([Ellipsis], [PageButton(t, c)]);
      PageNumbersOne(PageButton(t, c));
      PageNumbersOne(Ellipsis);
    } else if c < t - 1 {
      assert Trail(c, t) == [PageButton(t, c)];
      PageNumbersOne(PageButton(t, c));
    }
  }

  /** The pages the numbered buttons lead to, in order. */
  lemma LayoutPageList(c: int, t: int)
    requires 1 <= c <= t
    ensures PageNumbers(Layout(c, t)) ==
              (if c > 2 then [1] else [])
              + ((if c > 1 then [c - 1] else []) + [c] + (if c < t then [c + 1] else []))
              + (if c < t - 1 then [t] else [])
  {
    var prev := [Button(Prev, c - 1, false, c == 1)];
    var next := [Button(Next, c + 1, false, c == t)];
    var lead, window, trail := Lead(c), Window(c, t), Trail(c, t);
    PageNumbersAppend(lead, window);
    PageNumbersAppend(lead + window, trail);
    assert PageNumbers(Middle(c, t)) == PageNumbers(lead) + PageNumbers(window) + PageNumbers(trail);
    PageNumbersAppend(prev, Middle(c, t));
    PageNumbersAppend(prev + Middle(c, t), next);
    PageNumbersOne(prev[0]);
    PageNumbersOne(next[0]);
    assert PageNumbers(Layout(c, t)) == PageNumbers(Middle(c, t));
    LeadPageNumbers(c);
    TrailPageNumbers(c, t);
    WindowPageNumbers(c, t);
  }

  /** For a current page within `[1, t]`, the numbered buttons lead to
      strictly increasing pages in `[1, t]`, namely page 1, page `t` and
      the pages next to `c`, and nothing else. */
  lemma LayoutPageNumbers(c: int, t: int)
    requires 1 <= c <= t
    ensures StrictlyIncreasing(PageNumbers(Layout(c, t)))
    ensures forall i :: 0 <= i < |PageNumbers(Layout(c, t))| ==> 1 <= PageNumbers(Layout(c, t))[i] <= t
    ensures forall p :: p in PageNumbers(Layout(c, t)) <==> 1 <= p <= t && (p == 1 || p == t || c - 1 <= p <= c + 1)
  {
    LayoutPageList(c, t);
  }

  /** Exactly one button is marked active, the one for the current page. */
  lemma LayoutOneActive(c: int, t: int)
    requires 1 <= c <= t
    ensures var l := Layout(c, t);
            exists k :: 0 <= k < |l| && l[k].Button? && l[k].active && l[k].target == c && l[k].caption == Page(c)
    ensures var l := Layout(c, t);
            forall k :: 0 <= k < |l| && l[k].Button? && l[k].active ==> l[k].caption == Page(c)
  {
    var l := Layout(c, t);
    var k := 1 + (if c > 2 then 1 else 0) + (if c >= 3 then 1 else 0) + (if c > 1 then 1 else 0);
    assert l[k] == PageButton(c, c);
  }

  /** "«" is disabled exactly on page 1 and "»" exactly on the last page,
      so every button that can be clicked leads to a page in `[1, t]`. */
  lemma LayoutTargetsInRange(c: int, t: int)
    requires 1 <= c <= t
    ensures var l := Layout(c, t);
            l[0].caption == Prev && (l[0].disabled <==> c == 1)
            && l[|l| - 1].caption == Next && (l[|l| - 1].disabled <==> c == t)
            && forall k :: 0 <= k < |l| && l[k].Button? && !l[k].disabled ==> 1 <= l[k].target <= t
  {
  }

  /** The number of "..." markers: one when `c >= 3`, one when `c < t - 2`. */
  function CountEllipses(l: seq<Control>): nat {
    if |l| == 0 then 0 else (if l[0].Ellipsis? then 1 else 0) + CountEllipses(l[1..])
  }

  lemma {:induction false} CountEllipsesAppend(a: seq<Control>, b: seq<Control>)
    ensures CountEllipses(a + b) == CountEllipses(a) + CountEllipses(b)
  {
    if |a| > 0 {
      CountEllipsesAppend(a[1..], b);
      assert (a + b)[1..] == a[1..] + b;
    } else {
      assert a + b == b;
    }
  }

  lemma {:induction false} NoEllipsisCount(l: seq<Control>)
    requires forall k :: 0 <= k < |l| ==> !l[k].Ellipsis?
    ensures CountEllipses(l) == 0
  {
    if |l| > 0 {
      NoEllipsisCount(l[1..]);
    }
  }

  lemma WindowNoEllipsis(c: int, t: int)
    ensures CountEllipses(Window(c, t)) == 0
  {
    NoEllipsisCount(Window(c, t));
  }

  lemma LayoutEllipses(c: int, t: int)
    requires 1 <= c <= t
    ensures CountEllipses(Layout(c, t)) == (if c >= 3 then 1 else 0) + (if c < t - 2 then 1 else 0)
  {
    var prev := [Button(Prev, c - 1, false, c == 1)];
    var next := [Button(Next, c + 1, false, c == t)];
    CountEllipsesAppend(prev + Middle(c, t), next);
    CountEllipsesAppend(prev, Middle(c, t));
    CountEllipsesAppend(Lead(c) + Window(c, t), Trail(c, t));
    CountEllipsesAppend(Lead(c), Window(c, t));
    NoEllipsisCount(prev);
    NoEllipsisCount(next);
    WindowNoEllipsis(c, t);
    if c > 2 {
      assert Lead(c) == [PageButton(1, c)] + [Ellipsis];
      CountEllipsesAppend([PageButton(1, c)], [Ellipsis]);
      NoEllipsisCount([PageButton(1, c)]);
    }
    if c < t - 2 {
      assert Trail(c, t) == [Ellipsis] + [PageButton(t, c)];
      CountEllipsesAppend([Ellipsis], [PageButton(t, c)]);
      NoEllipsisCount([PageButton(t, c)]);
    } else if c < t - 1 {
      assert Trail(c, t) == [PageButton(t, c)];
      NoEllipsisCount([PageButton(t, c)]);
    }
  }

  // ---------------------------------------------------------------------
  // Where "..." appears

  /** A "..." stands between two numbered buttons whose pages are not
      adjacent, and two numbered buttons side by side lead to adjacent
      pages: the markers show exactly where pages are hidden. */
  ghost predicate EllipsesMarkHiddenPages(l: seq<Control>) {
    EllipsesBetweenGaps(l) && AdjacentButtonsConsecutive(l)
  }

  ghost predicate EllipsesBetweenGaps(l: seq<Control>) {
    forall k :: 0 <= k < |l| && l[k].Ellipsis? ==>
      0 < k < |l| - 1 && IsPageButton(l[k - 1]) && IsPageButton(l[k + 1])
      && l[k + 1].target > l[k - 1].target + 1
  }

  ghost predicate AdjacentButtonsConsecutive(l: seq<Control>) {
    forall k :: 0 <= k < |l| - 1 && IsPageButton(l[k]) && IsPageButton(l[k + 1]) ==>
      l[k + 1].target == l[k].target + 1
  }

  /** On page 3 the control reads "« 1 ... 2 3 4 ...": the first "..."
      stands between pages 1 and 2, hiding nothing. */
  lemma LayoutSpuriousEllipsis(t: int)
    requires t >= 3
    ensures Layout(3, t)[1] == PageButton(1, 3)
    ensures Layout(3, t)[2] == Ellipsis
    ensures Layout(3, t)[3] == PageButton(2, 3)
    ensures !EllipsesMarkHiddenPages(Layout(3, t))
  {
    assert Layout(3, t)[2].Ellipsis?;
  }

  /** The leading part as evidently intended: "..." only when page 2 is
      not shown, that is when `c > 3`, mirroring the trailing "..." that
      appears only when page `t - 1` is not shown. */
  function IntendedLead(c: int): seq<Control> {
    (if c > 2 then [PageButton(1, c)] else []) + (if c > 3 then [Ellipsis] else [])
  }

  function IntendedLayout(c: int, t: int): seq<Control> {
    [Button(Prev, c - 1, false, c == 1)] + IntendedLead(c) + Window(c, t) + Trail(c, t)
    + [Button(Next, c + 1, false, c == t)]
  }

  /** With the corrected leading part every "..." marks hidden pages. */
  lemma IntendedLayoutMarksHiddenPages(c: int, t: int)
    requires 1 <= c <= t
    ensures EllipsesMarkHiddenPages(IntendedLayout(c, t))
  {
    if c == 1 {
      MarksHiddenOnPage1(t);
    } else if c == 2 {
      MarksHiddenOnPage2(t);
    } else if c == 3 {
      MarksHiddenOnPage3(t);
    } else {
      MarksHiddenFromPage4(c, t);
    }
  }

  lemma MarksHiddenOnPage1(t: int)
    requires 1 <= t
    ensures EllipsesMarkHiddenPages(IntendedLayout(1, t))
  {
    if t == 1 {
      MarksHiddenOnPage1Last(t);
    } else if t == 2 {
      MarksHiddenOnPage1OneAfter(t);
    } else if t == 3 {
      MarksHiddenOnPage1TwoAfter(t);
    } else {
      MarksHiddenOnPage1ManyAfter(t);
    }
  }

  lemma MarksHiddenOnPage1Last(t: int)
    requires t == 1
    ensures EllipsesMarkHiddenPages(IntendedLayout(1, t))
  {
    var c := 1;
    var l := [Button(Prev, c - 1, false, c == 1), PageButton(c, c), Button(Next, c + 1, false, c == t)];
    assert EllipsesBetweenGaps(l);
    assert AdjacentButtonsConsecutive(l);
    assert Window(c, t) == [PageButton(c, c)];
    assert Trail(c, t) == [];
    assert IntendedLayout(c, t) == l;
  }

  lemma MarksHiddenOnPage1OneAfter(t: int)
    requires t == 2
    ensures EllipsesMarkHiddenPages(IntendedLayout(1, t))
  {
    var c := 1;
    var l := [Button(Prev, c - 1, false, c == 1), PageButton(c, c), PageButton(c + 1, c), Button(Next, c + 1, false, c == t)];
    assert EllipsesBetweenGaps(l);
    assert AdjacentButtonsConsecutive(l);
    assert Window(c, t) == [PageButton(c, c), PageButton(c + 1, c)];
    assert Trail(c, t) == [];
    assert IntendedLayout(c, t) == l;
  }

  lemma MarksHiddenOnPage1TwoAfter(t: int)
    requires t == 3
    ensures EllipsesMarkHiddenPages(IntendedLayout(1, t))
  {
    var c := 1;
    var l := [Button(Prev, c - 1, false, c == 1), PageButton(c, c), PageButton(c + 1, c), PageButton(t, c), Button(Next, c + 1, false, c == t)];
    assert EllipsesBetweenGaps(l);
    assert AdjacentButtonsConsecutive(l);
    assert Window(c, t) == [PageButton(c, c), PageButton(c + 1, c)];
    assert Trail(c, t) == [PageButton(t, c)];
    assert IntendedLayout(c, t) == l;
  }

  lemma MarksHiddenOnPage1ManyAfter(t: int)
    requires t > 3
    ensures EllipsesMarkHiddenPages(IntendedLayout(1, t))
  {
    var c := 1;
    var l := [Button(Prev, c - 1, false, c == 1), PageButton(c, c), PageButton(c + 1, c), Ellipsis, PageButton(t, c), Button(Next, c + 1, false, c == t)];
    assert EllipsesBetweenGaps(l);
    assert AdjacentButtonsConsecutive(l);
    assert Window(c, t) == [PageButton(c, c), PageButton(c + 1, c)];
    assert Trail(c, t) == [Ellipsis, PageButton(t, c)];
    assert IntendedLayout(c, t) == l;
  }

  lemma MarksHiddenOnPage2(t: int)
    requires 2 <= t
    ensures EllipsesMarkHiddenPages(IntendedLayout(2, t))
  {
    if t == 2 {
      MarksHiddenOnPage2Last(t);
    } else if t == 3 {
      MarksHiddenOnPage2OneAfter(t);
    } else if t == 4 {
      MarksHiddenOnPage2TwoAfter(t);
    } else {
      MarksHiddenOnPage2ManyAfter(t);
    }
  }

  lemma MarksHiddenOnPage2Last(t: int)
    requires t == 2
    ensures EllipsesMarkHiddenPages(IntendedLayout(2, t))
  {
    var c := 2;
    var l := [Button(Prev, c - 1, false, c == 1), PageButton(c - 1, c), PageButton(c, c), Button(Next, c + 1, false, c == t)];
    assert EllipsesBetweenGaps(l);
    assert AdjacentButtonsConsecutive(l);
    assert Window(c, t) == [PageButton(c - 1, c), PageButton(c, c)];
    assert Trail(c, t) == [];
    assert IntendedLayout(c, t) == l;
  }

  lemma MarksHiddenOnPage2OneAfter(t: int)
    requires t == 3
    ensures EllipsesMarkHiddenPages(IntendedLayout(2, t))
  {
    var c := 2;
    var l := [Button(Prev, c - 1, false, c == 1), PageButton(c - 1, c), PageButton(c, c), PageButton(c + 1, c), Button(Next, c + 1, false, c == t)];
    assert EllipsesBetweenGaps(l);
    assert AdjacentButtonsConsecutive(l);
    assert Window(c, t) == [PageButton(c - 1, c), PageButton(c, c), PageButton(c + 1, c)];
    assert Trail(c, t) == [];
    assert IntendedLayout(c, t) == l;
  }

  lemma MarksHiddenOnPage2TwoAfter(t: int)
    requires t == 4
    ensures EllipsesMarkHiddenPages(IntendedLayout(2, t))
  {
    var c := 2;
    var l := [Button(Prev, c - 1, false, c == 1), PageButton(c - 1, c), PageButton(c, c), PageButton(c + 1, c), PageButton(t, c), Button(Next, c + 1, false, c == t)];
    assert EllipsesBetweenGaps(l);
    assert AdjacentButtonsConsecutive(l);
    assert Window(c, t) == [PageButton(c - 1, c), PageButton(c, c), PageButton(c + 1, c)];
    assert Trail(c, t) == [PageButton(t, c)];
    assert IntendedLayout(c, t) == l;
  }

  lemma MarksHiddenOnPage2ManyAfter(t: int)
    requires t > 4
    ensures EllipsesMarkHiddenPages(IntendedLayout(2, t))
  {
    var c := 2;
    var l := [Button(Prev, c - 1, false, c == 1), PageButton(c - 1, c), PageButton(c, c), PageButton(c + 1, c), Ellipsis, PageButton(t, c), Button(Next, c + 1, false, c == t)];
    assert EllipsesBetweenGaps(l);
    assert AdjacentButtonsConsecutive(l);
    assert Window(c, t) == [PageButton(c - 1, c), PageButton(c, c), PageButton(c + 1, c)];
    assert Trail(c, t) == [Ellipsis, PageButton(t, c)];
    assert IntendedLayout(c, t) == l;
  }

  lemma MarksHiddenOnPage3(t: int)
    requires 3 <= t
    ensures EllipsesMarkHiddenPages(IntendedLayout(3, t))
  {
    if t == 3 {
      MarksHiddenOnPage3Last(t);
    } else if t == 4 {
      MarksHiddenOnPage3OneAfter(t);
    } else if t == 5 {
      MarksHiddenOnPage3TwoAfter(t);
    } else {
      MarksHiddenOnPage3ManyAfter(t);
    }
  }

  lemma MarksHiddenOnPage3Last(t: int)
    requires t == 3
    ensures EllipsesMarkHiddenPages(IntendedLayout(3, t))
  {
    var c := 3;
    var l := [Button(Prev, c - 1, false, c == 1), PageButton(1, c), PageButton(c - 1, c), PageButton(c, c), Button(Next, c + 1, false, c == t)];
    assert EllipsesBetweenGaps(l);
    assert AdjacentButtonsConsecutive(l);
    assert IntendedLead(c) == [PageButton(1, c)];
    assert Window(c, t) == [PageButton(c - 1, c), PageButton(c, c)];
    assert Trail(c, t) == [];
    assert IntendedLayout(c, t) == l;
  }

  lemma MarksHiddenOnPage3OneAfter(t: int)
    requires t == 4
    ensures EllipsesMarkHiddenPages(IntendedLayout(3, t))
  {
    var c := 3;
    var l := [Button(Prev, c - 1, false, c == 1), PageButton(1, c), PageButton(c - 1, c), PageButton(c, c), PageButton(c + 1, c), Button(Next, c + 1, false, c == t)];
    assert EllipsesBetweenGaps(l);
    assert AdjacentButtonsConsecutive(l);
    assert IntendedLead(c) == [PageButton(1, c)];
    assert Window(c, t) == [PageButton(c - 1, c), PageButton(c, c), PageButton(c + 1, c)];
    assert Trail(c, t) == [];
    assert IntendedLayout(c, t) == l;
  }

  lemma MarksHiddenOnPage3TwoAfter(t: int)
    requires t == 5
    ensures EllipsesMarkHiddenPages(IntendedLayout(3, t))
  {
    var c := 3;
    var l := [Button(Prev, c - 1, false, c == 1), PageButton(1, c), PageButton(c - 1, c), PageButton(c, c), PageButton(c + 1, c), PageButton(t, c), Button(Next, c + 1, false, c == t)];
    assert EllipsesBetweenGaps(l);
    assert AdjacentButtonsConsecutive(l);
    assert IntendedLead(c) == [PageButton(1, c)];
    assert Window(c, t) == [PageButton(c - 1, c), PageButton(c, c), PageButton(c + 1, c)];
    assert Trail(c, t) == [PageButton(t, c)];
    assert IntendedLayout(c, t) == l;
  }

  lemma MarksHiddenOnPage3ManyAfter(t: int)
    requires t > 5
    ensures EllipsesMarkHiddenPages(IntendedLayout(3, t))
  {
    var c := 3;
    var l := [Button(Prev, c - 1, false, c == 1), PageButton(1, c), PageButton(c - 1, c), PageButton(c, c), PageButton(c + 1, c), Ellipsis, PageButton(t, c), Button(Next, c + 1, false, c == t)];
    assert EllipsesBetweenGaps(l);
    assert AdjacentButtonsConsecutive(l);
    assert IntendedLead(c) == [PageButton(1, c)];
    assert Window(c, t) == [PageButton(c - 1, c), PageButton(c, c), PageButton(c + 1, c)];
    assert Trail(c, t) == [Ellipsis, PageButton(t, c)];
    assert IntendedLayout(c, t) == l;
  }

  lemma MarksHiddenFromPage4(c: int, t: int)
    requires 4 <= c <= t
    ensures EllipsesMarkHiddenPages(IntendedLayout(c, t))
  {
    if t == c {
      MarksHiddenFromPage4Last(c, t);
    } else if t == c + 1 {
      MarksHiddenFromPage4OneAfter(c, t);
    } else if t == c + 2 {
      MarksHiddenFromPage4TwoAfter(c, t);
    } else {
      MarksHiddenFromPage4ManyAfter(c, t);
    }
  }

  lemma MarksHiddenFromPage4Last(c: int, t: int)
    requires 4 <= c && t == c
    ensures EllipsesMarkHiddenPages(IntendedLayout(c, t))
  {
    var l := [Button(Prev, c - 1, false, c == 1), PageButton(1, c), Ellipsis, PageButton(c - 1, c), PageButton(c, c), Button(Next, c + 1, false, c == t)];
    assert EllipsesBetweenGaps(l);
    assert AdjacentButtonsConsecutive(l);
    assert IntendedLead(c) == [PageButton(1, c), Ellipsis];
    assert Window(c, t) == [PageButton(c - 1, c), PageButton(c, c)];
    assert Trail(c, t) == [];
    assert IntendedLayout(c, t) == l;
  }

  lemma MarksHiddenFromPage4OneAfter(c: int, t: int)
    requires 4 <= c && t == c + 1
    ensures EllipsesMarkHiddenPages(IntendedLayout(c, t))
  {
    var l := [Button(Prev, c - 1, false, c == 1), PageButton(1, c), Ellipsis, PageButton(c - 1, c), PageButton(c, c), PageButton(c + 1, c), Button(Next, c + 1, false, c == t)];
    assert EllipsesBetweenGaps(l);
    assert AdjacentButtonsConsecutive(l);
    assert IntendedLead(c) == [PageButton(1, c), Ellipsis];
    assert Window(c, t) == [PageButton(c - 1, c), PageButton(c, c), PageButton(c + 1, c)];
    assert Trail(c, t) == [];
    assert IntendedLayout(c, t) == l;
  }

  lemma MarksHiddenFromPage4TwoAfter(c: int, t: int)
    requires 4 <= c && t == c + 2
    ensures EllipsesMarkHiddenPages(IntendedLayout(c, t))
  {
    var l := [Button(Prev, c - 1, false, c == 1), PageButton(1, c), Ellipsis, PageButton(c - 1, c), PageButton(c, c), PageButton(c + 1, c), PageButton(t, c), Button(Next, c + 1, false, c == t)];
    assert EllipsesBetweenGaps(l);
    assert AdjacentButtonsConsecutive(l);
    assert IntendedLead(c) == [PageButton(1, c), Ellipsis];
    assert Window(c, t) == [PageButton(c - 1, c), PageButton(c, c), PageButton(c + 1, c)];
    assert Trail(c, t) == [PageButton(t, c)];
    assert IntendedLayout(c, t) == l;
  }

  lemma MarksHiddenFromPage4ManyAfter(c: int, t: int)
    requires 4 <= c && t > c + 2
    ensures EllipsesMarkHiddenPages(IntendedLayout(c, t))
  {
    var l := [Button(Prev, c - 1, false, c == 1), PageButton(1, c), Ellipsis, PageButton(c - 1, c), PageButton(c, c), PageButton(c + 1, c), Ellipsis, PageButton(t, c), Button(Next, c + 1, false, c == t)];
    assert EllipsesBetweenGaps(l);
    assert AdjacentButtonsConsecutive(l);
    assert IntendedLead(c) == [PageButton(1, c), Ellipsis];
    assert Window(c, t) == [PageButton(c - 1, c), PageButton(c, c), PageButton(c + 1, c)];
    assert Trail(c, t) == [Ellipsis, PageButton(t, c)];
    assert IntendedLayout(c, t) == l;
  }

  /** The correction changes the control on page 3 only. */
  lemma IntendedLayoutDiffersOnlyOnPage3(c: int, t: int)
    requires c != 3
    ensures IntendedLayout(c, t) == Layout(c, t)
  {
    assert IntendedLead(c) == Lead(c);
  }

  /** On page 3 the control as written is the corrected one with a "..."
      put in after page 1. */
  lemma IntendedLayoutOnPage3(t: int)
    requires t >= 3
    ensures |IntendedLayout(3, t)| >= 2
    ensures Layout(3, t) == IntendedLayout(3, t)[..2] + [Ellipsis] + IntendedLayout(3, t)[2..]
  {
    var prev := [Button(Prev, 2, false, false)];
    var next := [Button(Next, 4, false, 3 == t)];
    var rest := Window(3, t) + Trail(3, t) + next;
    assert IntendedLayout(3, t) == prev + [PageButton(1, 3)] + rest;
    assert Layout(3, t) == prev + [PageButton(1, 3)] + [Ellipsis] + rest;
  }

  /** The corrected control leads to the same pages as the one written,
      and its enabled buttons too stay within `[1, t]`. */
  lemma IntendedTargetsInRange(c: int, t: int)
    requires 1 <= c <= t
    ensures PageNumbers(IntendedLayout(c, t)) == PageNumbers(Layout(c, t))
    ensures var l := IntendedLayout(c, t);
            l[0].caption == Prev && (l[0].disabled <==> c == 1)
            && l[|l| - 1].caption == Next && (l[|l| - 1].disabled <==> c == t)
            && forall k :: 0 <= k < |l| && l[k].Button? && !l[k].disabled ==> 1 <= l[k].target <= t
  {
    LayoutTargetsInRange(c, t);
    if c != 3 {
      IntendedLayoutDiffersOnlyOnPage3(c, t);
    } else {
      Page3SamePages(t);
      Page3SameButtons(t);
    }
  }

  lemma Page3SamePages(t: int)
    requires t >= 3
    ensures PageNumbers(IntendedLayout(3, t)) == PageNumbers(Layout(3, t))
  {
    var l := IntendedLayout(3, t);
    IntendedLayoutOnPage3(t);
    var a, b := l[..2], l[2..];
    assert l == a + b;
    PageNumbersAppend(a, b);
    PageNumbersAppend(a, [Ellipsis]);
    PageNumbersAppend(a + [Ellipsis], b);
    PageNumbersOne(Ellipsis);
  }

  /** On page 3 the buttons of the corrected control are those of the
      control as written, with the "..." at index 2 taken out. */
  lemma Page3SameButtons(t: int)
    requires t >= 3
    ensures var l, m := IntendedLayout(3, t), Layout(3, t);
            |m| == |l| + 1
            && (forall k :: 0 <= k < 2 ==> l[k] == m[k])
            && (forall k :: 2 <= k < |l| ==> l[k] == m[k + 1])
  {
    IntendedLayoutOnPage3(t);
  }

  /** `ClientPageRun` for any page, as an implication. */
  lemma ClientPageFrom<T>(s: seq<T>, page: int, rows: int)
    requires rows > 0
    ensures page >= 1 ==>
              var a := PageStart(page, rows);
              ClientPage(s, page, rows) == s[(if a < |s| then a else |s|)..(if a + rows < |s| then a + rows else |s|)]
  {
    if page >= 1 {
      ClientPageRun(s, page, rows);
    }
  }

  // ---------------------------------------------------------------------
  // A table's pages

  /** The page count `renderTableRows` works with: one without
      pagination, otherwise the pages of the server's `totalRows` in server
      mode and of the `shown` rows in view in client mode. */
  function TablePages(pagination: bool, serverSide: bool, shown: nat, totalRows: int, rows: int): (n: int)
    requires rows > 0
    ensures !pagination ==> n == 1
    ensures pagination && !serverSide ==>
              n >= 1 && (shown == 0 ==> n == 1)
              && (shown > 0 ==> (n - 1) * rows < shown <= n * rows)
    ensures pagination && serverSide && totalRows >= 0 ==>
              n >= 1 && (totalRows == 0 ==> n == 1)
              && (totalRows > 0 ==> (n - 1) * rows < totalRows <= n * rows)
  {
    if !pagination then 1
    else if serverSide then TotalPages(totalRows, rows)
    else TotalPages(shown, rows)
  }

  /** The rows the table body shows: the whole view in server mode (the
      server sent one page) and without pagination, otherwise the current
      page's run of the view. */
  function TableRows<T>(view: seq<T>, pagination: bool, serverSide: bool, page: int, rows: int): (r: seq<T>)
    requires rows > 0
    ensures !pagination || serverSide ==> r == view
    ensures pagination && !serverSide ==> |r| <= rows
    ensures pagination && !serverSide && page >= 1 ==>
              var a, n := PageStart(page, rows), |view|;
              r == view[(if a < n then a else n)..(if a + rows < n then a + rows else n)]
  {
    if !pagination || serverSide then view
    else
      ClientPageFrom(view, page, rows);
      ClientPage(view, page, rows)
  }

  /** The pagination control under the table as the code lays it out;
      nothing without pagination. */
  function TableControls(pagination: bool, page: int, pages: int): (r: Option<seq<Control>>)
    ensures r.Some? <==> pagination
    ensures r.Some? ==>
              && |r.value| >= 2
              && r.value[0] == Button(Prev, page - 1, false, page == 1)
              && r.value[|r.value| - 1] == Button(Next, page + 1, false, page == pages)
    ensures r.Some? && 1 <= page <= pages ==>
              StrictlyIncreasing(PageNumbers(r.value))
              && (forall p :: p in PageNumbers(r.value) <==>
                    1 <= p <= pages && (p == 1 || p == pages || page - 1 <= p <= page + 1))
              && CountEllipses(r.value) == (if page >= 3 then 1 else 0) + (if page < pages - 2 then 1 else 0)
  {
    if !pagination then None
    else
      LayoutFacts(page, pages);
      Some(Layout(page, pages))
  }

  /** What the control as written promises for a current page within
      `[1, n]`. */
  lemma LayoutFacts(c: int, n: int)
    ensures 1 <= c <= n ==>
              var l := Layout(c, n);
              StrictlyIncreasing(PageNumbers(l))
              && (forall p :: p in PageNumbers(l) <==> 1 <= p <= n && (p == 1 || p == n || c - 1 <= p <= c + 1))
              && CountEllipses(l) == (if c >= 3 then 1 else 0) + (if c < n - 2 then 1 else 0)
              && l[0].caption == Prev && (l[0].disabled <==> c == 1)
              && l[|l| - 1].caption == Next && (l[|l| - 1].disabled <==> c == n)
  {
    if 1 <= c <= n {
      LayoutPageNumbers(c, n);
      LayoutEllipses(c, n);
      LayoutTargetsInRange(c, n);
    }
  }

  /** From a page within range every enabled button of the control leads
      to a page within range. */
  lemma TableControlTargets(page: int, pages: int, k: int)
    requires 1 <= page <= pages
    requires 0 <= k < |TableControls(true, page, pages).value|
    requires TableControls(true, page, pages).value[k].Button?
    requires !TableControls(true, page, pages).value[k].disabled
    ensures 1 <= TableControls(true, page, pages).value[k].target <= pages
  {
    LayoutTargetsInRange(page, pages);
  }
}

=== FILE: records.dfy ===
/** What the two versions of the table share: how a fetch can end, the
    server's reported total, the messages of the errors JavaScript throws
    on `null`, and the search filter over a record array. */
module Records {

  import opened Maybe
  import opened Text
  import opened Json
  import opened Seqs

  /** How a fetch ends: a parsed body, a response whose status is not OK,
      or an error with its name and message (a network error, a body that
      is not JSON, or an abort, named `AbortError`). */
  datatype Response =
    | Ok(body: Value)
    | HttpError(status: int)
    | Failed(name: string, message: string)

  /** The `TypeError` message for reading property `k` of `null`. */
  function NullPropertyMessage(k: string): string {
    "Cannot read properties of null (reading '" + k + "')"
  }

  /** The `TypeError` message of `Object.values(null)`. */
  const NullObjectMessage: string := "Cannot convert undefined or null to object"

  /** `result.total` when it is a non-zero integer. */
  function ReportedTotal(body: Value): (r: Option<int>)
    requires !body.Null?
    ensures r.Some? <==> exists n :: n != 0 && Member(body, "total") == Some(Int(n))
    ensures r.Some? ==> r.value != 0 && Member(body, "total") == Some(Int(r.value))
  {
    match Member(body, "total")
    case Some(Int(n)) => if n != 0 then Some(n) else None
    case _ => None
  }

  // ---------------------------------------------------------------------
  // The search filter

  /** `keyword.toLowerCase().trim()`. */
  function SearchKey(keyword: string): (key: string)
    ensures key == Lower(Trim(keyword))
  {
    LowerTrimCommute(keyword);
    Trim(Lower(keyword))
  }

  /** The record passes the search: one of its flattened values, turned
      into a string (`null` as "") and lower-cased, contains `key`. */
  predicate Matches(row: Value, key: string) {
    !row.Null? && exists leaf | leaf in Leaves(row) :: Contains(Lower(LeafText(leaf)), key)
  }

  /** A record with a scalar property whose text contains the key matches
      it. */
  lemma FieldMatches(fields: seq<Field>, k: nat, key: string)
    requires k < |fields| && !IsObjectLike(fields[k].value)
    requires Contains(Lower(LeafText(fields[k].value)), key)
    ensures Matches(Obj(fields), key)
  {
    ScalarFieldIsLeaf(fields, k);
  }

  /** A record matches when a nested array or object in it matches, so a
      property at any depth can make it match. */
  lemma NestedMatches(fields: seq<Field>, k: nat, key: string)
    requires k < |fields| && IsObjectLike(fields[k].value)
    requires Matches(fields[k].value, key)
    ensures Matches(Obj(fields), key)
  {
    var leaf :| leaf in Leaves(fields[k].value) && Contains(Lower(LeafText(leaf)), key);
    NestedFieldLeaves(fields, k, leaf);
  }

  /** A record matches exactly through a scalar that occurs within it:
      the search keeps a record only for one of its own values. */
  lemma MatchesExactly(row: Value, key: string)
    requires !row.Null?
    ensures Matches(row, key) <==>
              exists x | Within(x, row) :: !IsObjectLike(x) && Contains(Lower(LeafText(x)), key)
  {
    forall x {
      LeavesExact(x, row);
    }
  }

  function Matcher(key: string): Value -> bool {
    (row: Value) => Matches(row, key)
  }

  /** The records `search(keyword)` leaves in view: all of `data` for a
      keyword that is blank once trimmed, otherwise the records of `data`
      that match it. `None` when a `null` record makes the filter throw. */
  function SearchView(data: seq<Value>, keyword: string): (r: Option<seq<Value>>)
    ensures SearchKey(keyword) == "" ==> r == Some(data)
    ensures SearchKey(keyword) != "" ==> (r.None? <==> Null in data)
    ensures r.Some? && SearchKey(keyword) != "" ==>
              (forall k :: 0 <= k < |r.value| ==> r.value[k] in data && Matches(r.value[k], SearchKey(keyword)))
              && (forall i :: 0 <= i < |data| && Matches(data[i], SearchKey(keyword)) ==> data[i] in r.value)
  {
    var key := SearchKey(keyword);
    if key == "" then Some(data)
    else if Null in data then None
    else Some(Filter(data, Matcher(key)))
  }

  /** The records a successful search keeps are exactly those of `data`
      that match, in the order `data` has them. */
  lemma SearchSelects(data: seq<Value>, keyword: string)
    requires !AllSpace(keyword) && Null !in data
    ensures SearchView(data, keyword).Some?
    ensures SelectsFrom(SearchView(data, keyword).value, data, Matcher(SearchKey(keyword)),
                        PositionsFrom(data, Matcher(SearchKey(keyword)), 0), 0)
  {
    FilterSelects(data, Matcher(SearchKey(keyword)), 0);
  }

  lemma PaddedKey(pre: string, keyword: string, post: string)
    requires AllSpace(pre) && AllSpace(post)
    ensures SearchKey(pre + keyword + post) == SearchKey(keyword)
  {
    TrimPadded(pre, keyword, post);
    LowerTrimCommute(pre + keyword + post);
    LowerTrimCommute(keyword);
  }

  /** A keyword that is all white space selects everything. */
  lemma BlankKey(keyword: string)
    requires AllSpace(keyword)
    ensures SearchKey(keyword) == ""
  {
    LowerTrimCommute(keyword);
  }
}

=== FILE: seqs.dfy ===
/** Sequence operations with JavaScript array semantics: `filter` and
    `slice`. */
module Seqs {

  /** `s.filter(p)` examined from position `from` on. */
  function FilterFrom<T>(s: seq<T>, p: T -> bool, from: nat): (r: seq<T>)
    requires from <= |s|
    ensures forall k :: 0 <= k < |r| ==> p(r[k]) && r[k] in s[from..]
    ensures forall i :: from <= i < |s| && p(s[i]) ==> s[i] in r
    decreases |s| - from
  {
    if from == |s| then []
    else (if p(s[from]) then [s[from]] else []) + FilterFrom(s, p, from + 1)
  }

  /** `s.filter(p)`: the elements of `s` that satisfy `p`, in order. */
  function Filter<T>(s: seq<T>, p: T -> bool): (r: seq<T>)
    ensures forall k :: 0 <= k < |r| ==> p(r[k]) && r[k] in s
    ensures forall i :: 0 <= i < |s| && p(s[i]) ==> s[i] in r
  {
    FilterFrom(s, p, 0)
  }

  /** The positions `Filter` keeps, from position `from` on. */
  function PositionsFrom<T>(s: seq<T>, p: T -> bool, from: nat): seq<nat>
    requires from <= |s|
    decreases |s| - from
  {
    if from == |s| then []
    else (if p(s[from]) then [from] else []) + PositionsFrom(s, p, from + 1)
  }

  /** `r` lists, in increasing order of position, exactly the elements of
      `s` at the positions in `idx`, and those are the positions at or
      after `from` whose element satisfies `p`. */
  ghost predicate SelectsFrom<T>(r: seq<T>, s: seq<T>, p: T -> bool, idx: seq<nat>, from: nat) {
    && |idx| == |r|
    && (forall k :: 0 <= k < |idx| ==> from <= idx[k] < |s| && r[k] == s[idx[k]])
    && (forall k, l :: 0 <= k < l < |idx| ==> idx[k] < idx[l])
    && (forall i :: from <= i < |s| ==> (p(s[i]) <==> i in idx))
  }

  /** The filter is the order-preserving selection of exactly the
      elements that satisfy the predicate. */
  lemma FilterSelects<T>(s: seq<T>, p: T -> bool, from: nat)
    requires from <= |s|
    ensures SelectsFrom(FilterFrom(s, p, from), s, p, PositionsFrom(s, p, from), from)
  {
    FilterPositionsAt(s, p, from);
    PositionsIncreasing(s, p, from);
    PositionsExact(s, p, from);
  }

  lemma {:induction false} FilterPositionsAt<T>(s: seq<T>, p: T -> bool, from: nat)
    requires from <= |s|
    ensures var r, idx := FilterFrom(s, p, from), PositionsFrom(s, p, from);
            |idx| == |r| && forall k :: 0 <= k < |idx| ==> from <= idx[k] < |s| && r[k] == s[idx[k]]
    decreases |s| - from
  {
    if from < |s| {
      FilterPositionsAt(s, p, from + 1);
    }
  }

  lemma {:induction false} PositionsIncreasing<T>(s: seq<T>, p: T -> bool, from: nat)
    requires from <= |s|
    ensures forall k :: 0 <= k < |PositionsFrom(s, p, from)| ==> from <= PositionsFrom(s, p, from)[k]
    ensures forall k, l :: 0 <= k < l < |PositionsFrom(s, p, from)| ==>
              PositionsFrom(s, p, from)[k] < PositionsFrom(s, p, from)[l]
    decreases |s| - from
  {
    if from < |s| {
      PositionsIncreasing(s, p, from + 1);
      var rest := PositionsFrom(s, p, from + 1);
      var idx := PositionsFrom(s, p, from);
      if p(s[from]) {
        assert idx == [from] + rest;
        assert forall k :: 1 <= k < |idx| ==> idx[k] == rest[k - 1];
      } else {
        assert idx == rest;
        assert forall k :: 0 <= k < |rest| ==> from + 1 <= rest[k];
      }
    }
  }

  lemma {:induction false} PositionsExact<T>(s: seq<T>, p: T -> bool, from: nat)
    requires from <= |s|
    ensures var idx := PositionsFrom(s, p, from);
            forall i :: from <= i < |s| ==> (p(s[i]) <==> i in idx)
    decreases |s| - from
  {
    if from < |s| {
      PositionsExact(s, p, from + 1);
      PositionsIncreasing(s, p, from + 1);
      var idx := PositionsFrom(s, p, from + 1);
      assert from !in idx;
      var head: seq<nat> := if p(s[from]) then [from] else [];
      var full := PositionsFrom(s, p, from);
      assert full == head + idx;
      forall i | from <= i < |s|
        ensures p(s[i]) <==> i in full
      {
        assert i in full <==> i in head || i in idx;
      }
    }
  }

  /** JavaScript's reading of a `slice` bound against length `len`: a
      negative bound counts from the end, and bounds are clamped to
      `[0, len]`. */
  function RelativeIndex(k: int, len: nat): (r: nat)
    ensures r <= len
    ensures 0 <= k <= len ==> r == k
    ensures k > len ==> r == len
    ensures k < 0 ==> r == if len + k < 0 then 0 else len + k
  {
    if k < 0 then (if len + k < 0 then 0 else len + k)
    else if k > len then len
    else k
  }

  /** `s.slice(start, end)`. */
  function JsSlice<T>(s: seq<T>, start: int, end: int): (r: seq<T>)
    ensures var a, b := RelativeIndex(start, |s|), RelativeIndex(end, |s|);
            if a < b then r == s[a..b] else r == []
  {
    var a := RelativeIndex(start, |s|);
    var b := RelativeIndex(end, |s|);
    if a < b then s[a..b] else []
  }
}

=== FILE: sorting.dfy ===
/** Column sorting: the header-click direction toggle, JavaScript's `<`
    on the JSON values a column holds, and a stable insertion sort that
    orders rows the way the table's comparator does. */
module Sorting {

  import opened Maybe
  import opened Text
  import opened Json

  datatype Direction = Asc | Desc

  /** The table's `sortConfig`: the selected column (`null` at first) and
      the direction. `K` is the type of a column identifier. */
  datatype SortConfig<K> = SortConfig(key: Option<K>, direction: Direction)

  const Unsorted: SortConfig<string> := SortConfig(None, Asc)

  /** A click on the header of column `key`: the same column while ascending
      turns to descending; any other click sorts ascending; the key is
      always the clicked column. */
  function Select<K(==)>(cfg: SortConfig<K>, key: K): (r: SortConfig<K>)
    ensures r.key == Some(key)
    ensures r.direction == Desc <==> cfg.key == Some(key) && cfg.direction == Asc
  {
    SortConfig(Some(key), if cfg.key == Some(key) && cfg.direction == Asc then Desc else Asc)
  }

  /** Clicking the same header again always flips the direction, so
      repeated clicks alternate ascending and descending. */
  lemma SelectAgainFlips<K>(cfg: SortConfig<K>, key: K)
    ensures Select(Select(cfg, key), key).direction != Select(cfg, key).direction
  {
  }

  /** Two clicks on the same header after a click on it return to the
      state after the first click. */
  lemma SelectThriceCycles<K>(cfg: SortConfig<K>, key: K)
    ensures Select(Select(Select(cfg, key), key), key) == Select(cfg, key)
  {
  }

  // ---------------------------------------------------------------------
  // JavaScript's `<` on column values

  /** `ToNumber` of a JSON scalar that converts exactly: `null` is 0,
      booleans are 0 and 1, integers are themselves. */
  function NumberOf(v: Value): Option<int> {
    match v
    case Null => Some(0)
    case Bool(b) => Some(if b then 1 else 0)
    case Int(i) => Some(i)
    case _ => None
  }

  /** String `<`: lexicographic on characters, a proper prefix first. */
  predicate LexLess(a: string, b: string) {
    if |a| == 0 then |b| > 0
    else if |b| == 0 then false
    else if a[0] != b[0] then a[0] < b[0]
    else LexLess(a[1..], b[1..])
  }

  lemma {:induction false} LexLessIrreflexive(a: string)
    ensures !LexLess(a, a)
  {
    if |a| > 0 {
      LexLessIrreflexive(a[1..]);
    }
  }

  lemma {:induction false} LexTrichotomy(a: string, b: string)
    ensures LexLess(a, b) || a == b || LexLess(b, a)
    ensures !(LexLess(a, b) && LexLess(b, a))
  {
    if |a| > 0 && |b| > 0 && a[0] == b[0] {
      LexTrichotomy(a[1..], b[1..]);
      if a[1..] == b[1..] {
        assert a == [a[0]] + a[1..] && b == [b[0]] + b[1..];
      }
    }
  }

  lemma {:induction false} LexTransitive(a: string, b: string, c: string)
    requires LexLess(a, b) && LexLess(b, c)
    ensures LexLess(a, c)
  {
    if |a| > 0 && a[0] == b[0] && b[0] == c[0] {
      LexTransitive(a[1..], b[1..], c[1..]);
    }
  }

  /** `Number(v)` for a scalar on one side of a mixed `<`: a string is
      read as a number, `None` standing for `NaN`. */
  function Numeric(v: Value): Option<int> {
    if v.Str? then ToNumber(v.s) else NumberOf(v)
  }

  /** `a < b` for two column values, `None` standing for `undefined`
      (which compares false with everything). Two strings compare as
      strings; otherwise both sides are converted to numbers, and a side
      that reads as `NaN` makes the comparison false. */
  predicate JsLess(a: Option<Value>, b: Option<Value>) {
    && a.Some? && b.Some?
    && if a.value.Str? && b.value.Str? then LexLess(a.value.s, b.value.s)
       else
         var x, y := Numeric(a.value), Numeric(b.value);
         x.Some? && y.Some? && x.value < y.value
  }

  /** A numeral compared with a number compares by value: `"5" < 10`
      and `9 < "10"` both hold. */
  lemma NumeralAgainstNumber(i: int, n: int)
    ensures JsLess(Some(Str(IntToString(i))), Some(Int(n))) <==> i < n
    ensures JsLess(Some(Int(n)), Some(Str(IntToString(i)))) <==> n < i
  {
    ToNumberIntToString(i);
  }

  /** The comparator's "sorts strictly before" for a column `key` of
      each row in the given direction: `valA < valB` when ascending,
      `valA > valB` when descending. */
  predicate Before<T>(key: T -> Option<Value>, dir: Direction, a: T, b: T) {
    if dir == Asc then JsLess(key(a), key(b)) else JsLess(key(b), key(a))
  }

  // ---------------------------------------------------------------------
  // The sort

  /** Inserts `x` before the first element that does not sort strictly
      before it. */
  function Insert<T>(x: T, s: seq<T>, key: T -> Option<Value>, dir: Direction): (r: seq<T>)
    ensures multiset(r) == multiset(s) + multiset{x}
  {
    if |s| == 0 then [x]
    else if Before(key, dir, s[0], x) then
      assert s == [s[0]] + s[1..];
      [s[0]] + Insert(x, s[1..], key, dir)
    else [x] + s
  }

  /** The rows of `s` reordered by the column `key` in direction `dir`;
      rows that compare equal keep their relative order. */
  function SortBy<T>(s: seq<T>, key: T -> Option<Value>, dir: Direction): (r: seq<T>)
    ensures multiset(r) == multiset(s)
  {
    if |s| == 0 then []
    else
      assert s == [s[0]] + s[1..];
      Insert(s[0], SortBy(s[1..], key, dir), key, dir)
  }

  /** No row sorts strictly before an earlier one. */
  ghost predicate SortedBy<T>(s: seq<T>, key: T -> Option<Value>, dir: Direction) {
    forall i, j :: 0 <= i < j < |s| ==> !Before(key, dir, s[j], s[i])
  }

  /** The column's values are all numeric scalars, all strings, or all
      `undefined`: the cases in which `<` is a strict weak order. */
  ghost predicate UniformColumn<T>(s: seq<T>, key: T -> Option<Value>) {
    || (forall i :: 0 <= i < |s| ==> key(s[i]).Some? && NumberOf(key(s[i]).value).Some?)
    || (forall i :: 0 <= i < |s| ==> key(s[i]).Some? && key(s[i]).value.Str?)
    || (forall i :: 0 <= i < |s| ==> key(s[i]).None?)
  }

  /** On a uniform column "sorts strictly before" is asymmetric and its
      complement is transitive. */
  lemma BeforeWeakOrder<T>(key: T -> Option<Value>, dir: Direction, a: T, b: T, c: T)
    requires UniformColumn([a, b, c], key)
    ensures Before(key, dir, a, b) ==> !Before(key, dir, b, a)
    ensures !Before(key, dir, b, a) && !Before(key, dir, c, b) ==> !Before(key, dir, c, a)
  {
    var s := [a, b, c];
    assert s[0] == a && s[1] == b && s[2] == c;
    if key(a).Some? && key(a).value.Str? && key(b).Some? && key(b).value.Str? && key(c).Some? && key(c).value.Str? {
      var x, y, z := key(a).value.s, key(b).value.s, key(c).value.s;
      LexTrichotomy(x, y);
      LexTrichotomy(y, z);
      LexTrichotomy(x, z);
      if LexLess(x, y) && LexLess(y, z) { LexTransitive(x, y, z); }
      if LexLess(z, y) && LexLess(y, x) { LexTransitive(z, y, x); }
    }
  }

  /** A column mixing a numeral and a number sorts by value: ascending,
      `["10", 9]` becomes `[9, "10"]`. */
  lemma NumeralSortsByValue(i: int, n: int)
    requires n < i
    ensures SortBy([Str(IntToString(i)), Int(n)], (v: Value) => Some(v), Asc)
            == [Int(n), Str(IntToString(i))]
  {
    var a, b := Str(IntToString(i)), Int(n);
    NumeralAgainstNumber(i, n);
    assert [a, b][1..] == [b];
    assert SortBy([b], (v: Value) => Some(v), Asc) == [b];
  }

  lemma UniformColumnSub<T>(s: seq<T>, key: T -> Option<Value>, t: seq<T>)
    requires UniformColumn(s, key)
    requires forall k :: 0 <= k < |t| ==> t[k] in s
    ensures UniformColumn(t, key)
  {
  }

  lemma {:induction false} InsertSorted<T>(x: T, s: seq<T>, key: T -> Option<Value>, dir: Direction)
    requires SortedBy(s, key, dir)
    requires UniformColumn([x] + s, key)
    ensures SortedBy(Insert(x, s, key, dir), key, dir)
  {
    if |s| > 0 && Before(key, dir, s[0], x) {
      UniformColumnSub([x] + s, key, [x] + s[1..]);
      InsertSorted(x, s[1..], key, dir);
      InsertSortedBehind(x, s, key, dir);
    } else if |s| > 0 {
      InsertSortedInFront(x, s, key, dir);
    }
  }

  /** `x` goes behind the head of `s`: the head stays first. */
  lemma InsertSortedBehind<T>(x: T, s: seq<T>, key: T -> Option<Value>, dir: Direction)
    requires |s| > 0 && Before(key, dir, s[0], x)
    requires SortedBy(s, key, dir)
    requires UniformColumn([x] + s, key)
    requires SortedBy(Insert(x, s[1..], key, dir), key, dir)
    ensures SortedBy([s[0]] + Insert(x, s[1..], key, dir), key, dir)
  {
    var t := Insert(x, s[1..], key, dir);
    var r := [s[0]] + t;
    assert multiset(t) == multiset(s[1..]) + multiset{x};
    forall j | 1 <= j < |r| ensures !Before(key, dir, r[j], s[0]) {
      assert r[j] in multiset(t);
      if r[j] == x {
        UniformColumnSub([x] + s, key, [x, s[0], s[0]]);
        BeforeWeakOrder(key, dir, x, s[0], s[0]);
      } else {
        assert r[j] in s[1..];
        var k :| 0 <= k < |s[1..]| && s[1..][k] == r[j];
        assert s[k + 1] == r[j];
      }
    }
  }

  /** `x` goes in front of `s`. */
  lemma InsertSortedInFront<T>(x: T, s: seq<T>, key: T -> Option<Value>, dir: Direction)
    requires |s| > 0 && !Before(key, dir, s[0], x)
    requires SortedBy(s, key, dir)
    requires UniformColumn([x] + s, key)
    ensures SortedBy([x] + s, key, dir)
  {
    var r := [x] + s;
    forall i, j | 0 <= i < j < |r| ensures !Before(key, dir, r[j], r[i]) {
      if i == 0 {
        UniformColumnSub([x] + s, key, [x, s[0], r[j]]);
        BeforeWeakOrder(key, dir, x, s[0], r[j]);
      }
    }
  }

  /** The sort's output is ordered whenever the column is uniform. */
  lemma {:induction false} SortBySorted<T>(s: seq<T>, key: T -> Option<Value>, dir: Direction)
    requires UniformColumn(s, key)
    ensures SortedBy(SortBy(s, key, dir), key, dir)
  {
    if |s| > 0 {
      UniformColumnSub(s, key, s[1..]);
      SortBySorted(s[1..], key, dir);
      var t := SortBy(s[1..], key, dir);
      forall k | 0 <= k < |[s[0]] + t| ensures ([s[0]] + t)[k] in s {
        if k > 0 {
          assert t[k - 1] in multiset(s[1..]);
        }
      }
      UniformColumnSub(s, key, [s[0]] + t);
      InsertSorted(s[0], t, key, dir);
    }
  }

  /** When no row sorts strictly before another (every comparison gives 0,
      as when the column is `undefined` everywhere), the order is kept. */
  lemma {:induction false} SortByAllEqual<T>(s: seq<T>, key: T -> Option<Value>, dir: Direction)
    requires forall i, j :: 0 <= i < |s| && 0 <= j < |s| ==> !Before(key, dir, s[i], s[j])
    ensures SortBy(s, key, dir) == s
  {
    if |s| > 0 {
      SortByAllEqual(s[1..], key, dir);
      assert s == [s[0]] + s[1..];
    }
  }
}

=== FILE: text.dfy ===
/** String helpers with the semantics of the JavaScript built-ins the
    table and the validator call: `trim`, `toLowerCase`, `includes`,
    `split` on one character, and integer formatting / parsing. */
module Text {

  import opened Maybe

  /** The characters `String.prototype.trim` removes and `\s` / `\S` in a
      regular expression classify as white space: the ECMAScript
      WhiteSpace and LineTerminator code points, namely U+0009 to U+000D,
      U+0020, U+00A0, U+1680, U+2000 to U+200A, U+2028, U+2029, U+202F,
      U+205F, U+3000 and U+FEFF. */
  predicate IsSpace(c: char) {
    var n := c as int;
    || 0x09 <= n <= 0x0D || n == 0x20 || n == 0xA0 || n == 0x1680
    || 0x2000 <= n <= 0x200A || n == 0x2028 || n == 0x2029 || n == 0x202F
    || n == 0x205F || n == 0x3000 || n == 0xFEFF
  }

  /** Every character of `s` in `[a, b)` is white space. */
  predicate SpaceBetween(s: string, a: int, b: int)
    requires 0 <= a && b <= |s|
  {
    forall m :: a <= m < b ==> IsSpace(s[m])
  }

  /** Every character of `s` is white space. */
  predicate AllSpace(s: string) {
    SpaceBetween(s, 0, |s|)
  }

  /** The first index at or after `i` that is not white space (or `|s|`). */
  function SkipSpace(s: string, i: nat): (k: nat)
    requires i <= |s|
    ensures i <= k <= |s| && SpaceBetween(s, i, k)
    ensures k < |s| ==> !IsSpace(s[k])
    decreases |s| - i
  {
    if i < |s| && IsSpace(s[i]) then SkipSpace(s, i + 1) else i
  }

  /** The index just after the last character before `j`, and not before
      `lo`, that is not white space (or `lo`). */
  function BackSpace(s: string, lo: nat, j: nat): (k: nat)
    requires lo <= j <= |s|
    ensures lo <= k <= j && SpaceBetween(s, k, j)
    ensures k > lo ==> !IsSpace(s[k - 1])
  {
    if j > lo && IsSpace(s[j - 1]) then BackSpace(s, lo, j - 1) else j
  }

  /** `s.trim()`: the infix of `s` left after removing white space at both
      ends. */
  function Trim(s: string): (r: string)
    ensures Contains(s, r)
    ensures |r| > 0 ==> !IsSpace(r[0]) && !IsSpace(r[|r| - 1])
    ensures AllSpace(s) <==> r == []
  {
    var i := SkipSpace(s, 0);
    var j := BackSpace(s, i, |s|);
    assert OccursAt(s, s[i..j], i);
    s[i..j]
  }

  /** Trimming gives `s[i..j]` for the only `i`, `j` that cut off white space
      and leave an infix without white space at its ends. */
  lemma TrimUnique(s: string, i: nat, j: nat)
    requires i <= j <= |s|
    requires SpaceBetween(s, 0, i) && SpaceBetween(s, j, |s|)
    requires i < j ==> !IsSpace(s[i]) && !IsSpace(s[j - 1])
    ensures Trim(s) == s[i..j]
  {
    var i' := SkipSpace(s, 0);
    if i < j {
      assert i' == i;
      var j' := BackSpace(s, i', |s|);
      assert j' == j;
    } else {
      assert i' == |s|;
    }
  }

  /** Trimming is idempotent: `trim(trim(s)) == trim(s)`. */
  lemma TrimIdempotent(s: string)
    ensures Trim(Trim(s)) == Trim(s)
  {
    var t := Trim(s);
    TrimUnique(t, 0, |t|);
    assert t[0..|t|] == t;
  }

  /** Trimming ignores any white-space padding added around a string. */
  lemma TrimPadded(pre: string, s: string, post: string)
    requires AllSpace(pre) && AllSpace(post)
    ensures Trim(pre + s + post) == Trim(s)
  {
    TrimPadStart(pre, s + post);
    assert pre + s + post == pre + (s + post);
    TrimPadEnd(s, post);
  }

  lemma TrimPadStart(pre: string, s: string)
    requires AllSpace(pre)
    ensures Trim(pre + s) == Trim(s)
  {
    var u := pre + s;
    var p := |pre|;
    var i := SkipSpace(s, 0);
    var j := BackSpace(s, i, |s|);
    PadStartFacts(pre, s, i, j);
    TrimUnique(u, p + i, p + j);
  }

  lemma PadStartFacts(pre: string, s: string, i: nat, j: nat)
    requires AllSpace(pre)
    requires i <= j <= |s|
    requires SpaceBetween(s, 0, i) && SpaceBetween(s, j, |s|)
    requires i < j ==> !IsSpace(s[i]) && !IsSpace(s[j - 1])
    ensures SpaceBetween(pre + s, 0, |pre| + i)
    ensures SpaceBetween(pre + s, |pre| + j, |pre + s|)
    ensures i < j ==> !IsSpace((pre + s)[|pre| + i]) && !IsSpace((pre + s)[|pre| + j - 1])
    ensures (pre + s)[|pre| + i..|pre| + j] == s[i..j]
  {
    var u := pre + s;
    var p := |pre|;
    forall m | 0 <= m < p + i ensures IsSpace(u[m]) {
      if m >= p { assert u[m] == s[m - p]; } else { assert u[m] == pre[m]; }
    }
    forall m | p + j <= m < |u| ensures IsSpace(u[m]) {
      assert u[m] == s[m - p];
    }
    assert u[p..] == s;
  }

  lemma TrimPadEnd(s: string, post: string)
    requires AllSpace(post)
    ensures Trim(s + post) == Trim(s)
  {
    var i := SkipSpace(s, 0);
    var j := BackSpace(s, i, |s|);
    PadEndFacts(s, post, i, j);
    TrimUnique(s + post, i, j);
  }

  lemma PadEndFacts(s: string, post: string, i: nat, j: nat)
    requires AllSpace(post)
    requires i <= j <= |s|
    requires SpaceBetween(s, 0, i) && SpaceBetween(s, j, |s|)
    requires i < j ==> !IsSpace(s[i]) && !IsSpace(s[j - 1])
    ensures SpaceBetween(s + post, 0, i)
    ensures SpaceBetween(s + post, j, |s + post|)
    ensures i < j ==> !IsSpace((s + post)[i]) && !IsSpace((s + post)[j - 1])
    ensures (s + post)[i..j] == s[i..j]
  {
    var u := s + post;
    forall m | 0 <= m < i ensures IsSpace(u[m]) {
      assert u[m] == s[m];
    }
    forall m | j <= m < |u| ensures IsSpace(u[m]) {
      if m >= |s| { assert u[m] == post[m - |s|]; } else { assert u[m] == s[m]; }
    }
    assert u[..|s|] == s;
  }

  /** `toLowerCase` on the ASCII letters; other characters are kept. */
  function LowerChar(c: char): (r: char)
    ensures 'A' <= c <= 'Z' ==> r as int == c as int + 32
    ensures !('A' <= c <= 'Z') ==> r == c
  {
    if 'A' <= c <= 'Z' then (c as int + 32) as char else c
  }

  function Lower(s: string): (r: string)
    ensures |r| == |s|
    ensures forall i :: 0 <= i < |s| ==> r[i] == LowerChar(s[i])
  {
    seq(|s|, i requires 0 <= i < |s| => LowerChar(s[i]))
  }

  /** Lower-casing neither creates nor removes white space, so lowering
      and trimming commute (`toLowerCase().trim()` is `trim().toLowerCase()`). */
  lemma LowerTrimCommute(s: string)
    ensures Trim(Lower(s)) == Lower(Trim(s))
  {
    var l := Lower(s);
    var i := SkipSpace(s, 0);
    var j := BackSpace(s, i, |s|);
    LowerSpaceBetween(s, 0, i);
    LowerSpaceBetween(s, j, |s|);
    if i < j {
      LowerCharSpace(s[i]);
      LowerCharSpace(s[j - 1]);
    }
    TrimUnique(l, i, j);
    LowerSlice(s, i, j);
  }

  lemma LowerSpaceBetween(s: string, a: nat, b: nat)
    requires a <= b <= |s| && SpaceBetween(s, a, b)
    ensures SpaceBetween(Lower(s), a, b)
  {
    forall m | a <= m < b ensures IsSpace(Lower(s)[m]) {
      LowerCharSpace(s[m]);
    }
  }

  lemma LowerSlice(s: string, i: nat, j: nat)
    requires i <= j <= |s|
    ensures Lower(s[i..j]) == Lower(s)[i..j]
  {
  }

  lemma LowerCharSpace(c: char)
    ensures IsSpace(LowerChar(c)) <==> IsSpace(c)
  {
  }

  /** `k` occurs in `s` starting at index `i`. */
  predicate OccursAt(s: string, k: string, i: int) {
    0 <= i <= |s| - |k| && s[i..i + |k|] == k
  }

  /** `s.includes(k)`: `k` occurs as a contiguous run of `s`. */
  predicate Contains(s: string, k: string) {
    exists i | 0 <= i <= |s| - |k| :: OccursAt(s, k, i)
  }

  /** `s.split(sep)` for a one-character separator. */
  function Split(s: string, sep: char): (r: seq<string>)
    ensures |r| >= 1
    ensures forall i :: 0 <= i < |r| ==> sep !in r[i]
    ensures Join(r, sep) == s
  {
    if |s| == 0 then [""]
    else
      var rest := Split(s[1..], sep);
      if s[0] == sep then
        assert ([""] + rest)[1..] == rest;
        [""] + rest
      else
        var r := [[s[0]] + rest[0]] + rest[1..];
        assert r[1..] == rest[1..];
        assert s == [s[0]] + s[1..];
        r
  }

  /** `pieces.join(sep)`. */
  function Join(pieces: seq<string>, sep: char): string
    requires |pieces| >= 1
  {
    if |pieces| == 1 then pieces[0] else pieces[0] + [sep] + Join(pieces[1..], sep)
  }

  /** Splitting undoes joining when no piece holds the separator. */
  lemma {:induction false} SplitJoin(pieces: seq<string>, sep: char)
    requires |pieces| >= 1
    requires forall i :: 0 <= i < |pieces| ==> sep !in pieces[i]
    ensures Split(Join(pieces, sep), sep) == pieces
    decreases |pieces|
  {
    if |pieces| == 1 {
      SplitNoSep(pieces[0], sep);
    } else {
      SplitJoin(pieces[1..], sep);
      SplitPrefix(pieces[0], sep, Join(pieces[1..], sep));
      assert [pieces[0]] + pieces[1..] == pieces;
    }
  }

  lemma {:induction false} SplitNoSep(s: string, sep: char)
    requires sep !in s
    ensures Split(s, sep) == [s]
    decreases |s|
  {
    if |s| > 0 {
      SplitNoSep(s[1..], sep);
      assert [s[0]] + s[1..] == s;
    }
  }

  lemma {:induction false} SplitPrefix(p: string, sep: char, t: string)
    requires sep !in p
    ensures Split(p + [sep] + t, sep) == [p] + Split(t, sep)
    decreases |p|
  {
    if |p| == 0 {
      assert p + [sep] + t == [sep] + t;
      assert ([sep] + t)[1..] == t;
    } else {
      assert (p + [sep] + t)[1..] == p[1..] + [sep] + t;
      SplitPrefix(p[1..], sep, t);
      assert [p[0]] + p[1..] == p;
    }
  }

  predicate IsDigit(c: char) {
    '0' <= c <= '9'
  }

  predicate AllDigits(s: string) {
    forall i :: 0 <= i < |s| ==> IsDigit(s[i])
  }

  function DigitChar(d: nat): (c: char)
    requires d < 10
    ensures IsDigit(c)
  {
    ('0' as int + d) as char
  }

  function DigitValue(c: char): (d: nat)
    requires IsDigit(c)
    ensures d < 10 && DigitChar(d) == c
  {
    c as int - '0' as int
  }

  /** `String(n)` for a non-negative integer: decimal digits without a
      leading zero. */
  function NatToString(n: nat): (r: string)
    ensures |r| >= 1 && AllDigits(r)
    ensures |r| > 1 ==> r[0] != '0'
    ensures r[0] == '0' ==> n == 0
  {
    if n < 10 then [DigitChar(n)] else NatToString(n / 10) + [DigitChar(n % 10)]
  }

  /** `String(i)` for any integer. */
  function IntToString(i: int): (r: string)
    ensures |r| >= 1
    ensures i < 0 <==> r[0] == '-'
    ensures forall k :: 0 < k < |r| ==> IsDigit(r[k])
  {
    if i < 0 then "-" + NatToString(-i) else NatToString(i)
  }

  /** The value of a string of decimal digits. */
  function ParseNat(s: string): nat
    requires AllDigits(s)
  {
    if |s| == 0 then 0 else ParseNat(s[..|s| - 1]) * 10 + DigitValue(s[|s| - 1])
  }

  /** Formatting then parsing gives the number back. */
  lemma {:induction false} ParseNatToString(n: nat)
    ensures ParseNat(NatToString(n)) == n
  {
    if n >= 10 {
      var r := NatToString(n);
      assert r[..|r| - 1] == NatToString(n / 10);
      ParseNatToString(n / 10);
    }
  }

  /** `Number(s)` for the strings the model reads as numbers: after trimming,
      the empty string is 0 and an optional sign followed by decimal digits
      is that integer; anything else is `NaN` (`None`). */
  function ToNumber(s: string): Option<int> {
    var t := Trim(s);
    if t == [] then Some(0)
    else if AllDigits(t) then Some(ParseNat(t))
    else if (t[0] == '+' || t[0] == '-') && |t| > 1 && AllDigits(t[1..]) then
      var v: int := if t[0] == '-' then -(ParseNat(t[1..]) as int) else ParseNat(t[1..]);
      Some(v)
    else None
  }

  /** `Number(String(i)) == i`. */
  lemma ToNumberIntToString(i: int)
    ensures ToNumber(IntToString(i)) == Some(i)
  {
    var r := IntToString(i);
    TrimDigits(r);
    if i < 0 {
      ToNumberSigned(r, -i);
    } else {
      ParseNatToString(i);
    }
  }

  lemma ToNumberSigned(r: string, n: nat)
    requires r == "-" + NatToString(n) && Trim(r) == r
    ensures ToNumber(r) == Some(-(n as int))
  {
    assert !IsDigit(r[0]);
    assert r[1..] == NatToString(n);
    ParseNatToString(n);
  }

  /** A sign or digit at each end leaves nothing for `trim` to remove. */
  lemma TrimDigits(r: string)
    requires |r| >= 1
    requires r[0] == '-' || IsDigit(r[0])
    requires IsDigit(r[|r| - 1])
    ensures Trim(r) == r
  {
    TrimUnique(r, 0, |r|);
    assert r[0..|r|] == r;
  }
}

=== FILE: uri.dfy ===
/** `encodeURIComponent`, which the server-side URL builder applies to the
    search term, and a reference decoder that undoes it. A character the
    encoding does not keep is replaced by the bytes of its UTF-8 form, each
    written `%XY` with upper-case hexadecimal digits. */
module Uri {

  import opened Maybe

  /** The characters `encodeURIComponent` keeps: letters, digits and
      `- _ . ! ~ * ' ( )`. */
  predicate Unreserved(c: char) {
    || 'A' <= c <= 'Z' || 'a' <= c <= 'z' || '0' <= c <= '9'
    || c == '-' || c == '_' || c == '.' || c == '!' || c == '~'
    || c == '*' || c == '\'' || c == '(' || c == ')'
  }

  type Byte = b: int | 0 <= b < 256

  /** A Unicode scalar value, the code points a `char` can hold. */
  predicate IsScalar(n: int) {
    0 <= n < 0xD800 || 0xE000 <= n < 0x11_0000
  }

  // ---------------------------------------------------------------------
  // UTF-8

  /** The UTF-8 form of one character: the lead byte carries the length
      and the top bits, each continuation byte six more bits. */
  function Utf8(c: char): (r: seq<Byte>)
    ensures 1 <= |r| <= 4
    ensures |r| == 1 <==> c as int < 0x80
    ensures |r| == 1 ==> r[0] == c as int
  {
    var n := c as int;
    var m1 := n / 64;
    var m2 := m1 / 64;
    if n < 0x80 then [n]
    else if n < 0x800 then [0xC0 + m1, 0x80 + n % 64]
    else if n < 0x1_0000 then [0xE0 + m2, 0x80 + m1 % 64, 0x80 + n % 64]
    else [0xF0 + m2 / 64, 0x80 + m2 % 64, 0x80 + m1 % 64, 0x80 + n % 64]
  }

  /** The UTF-8 form of a string. */
  function Utf8Of(s: string): seq<Byte> {
    if |s| == 0 then [] else Utf8(s[0]) + Utf8Of(s[1..])
  }

  /** The number of bytes a character takes, read off its lead byte; 0
      for a byte that cannot lead. */
  function SequenceLength(b: Byte): (len: nat)
    ensures len <= 4
  {
    if b < 0x80 then 1
    else if 0xC0 <= b < 0xE0 then 2
    else if 0xE0 <= b < 0xF0 then 3
    else if 0xF0 <= b < 0xF8 then 4
    else 0
  }

  predicate Continuation(b: Byte) {
    0x80 <= b < 0xC0
  }

  /** The code point of a lead byte and its continuation bytes. */
  function CodePoint(bs: seq<Byte>): int
    requires 1 <= |bs| <= 4
  {
    var b: seq<int> := bs;
    if |b| == 1 then b[0]
    else if |b| == 2 then (b[0] - 0xC0) * 64 + (b[1] - 0x80)
    else if |b| == 3 then ((b[0] - 0xE0) * 64 + (b[1] - 0x80)) * 64 + (b[2] - 0x80)
    else (((b[0] - 0xF0) * 64 + (b[1] - 0x80)) * 64 + (b[2] - 0x80)) * 64 + (b[3] - 0x80)
  }

  /** Reads UTF-8 back into characters; `None` for a byte sequence that
      is cut short or does not spell a scalar value. */
  function Utf8Decode(bs: seq<Byte>): Option<string>
    decreases |bs|
  {
    if |bs| == 0 then Some("")
    else
      var len := SequenceLength(bs[0]);
      if len == 0 || |bs| < len then None
      else if exists k | 1 <= k < len :: !Continuation(bs[k]) then None
      else
        var n := CodePoint(bs[..len]);
        if !IsScalar(n) then None
        else
          match Utf8Decode(bs[len..])
          case None => None
          case Some(rest) => Some([n as char] + rest)
  }

  /** One character's bytes are read back as that character. */
  lemma Utf8DecodeChar(c: char, rest: seq<Byte>)
    ensures Utf8Decode(Utf8(c) + rest)
            == if Utf8Decode(rest).Some? then Some([c] + Utf8Decode(rest).value) else None
  {
    var u := Utf8(c);
    var bs := u + rest;
    Utf8Lead(c);
    assert bs[..|u|] == u && bs[|u|..] == rest;
    assert forall k | 1 <= k < |u| :: bs[k] == u[k];
  }

  /** The lead byte of a character's form tells its length, the other
      bytes are continuation bytes, and together they spell the
      character's code point. */
  lemma Utf8Lead(c: char)
    ensures SequenceLength(Utf8(c)[0]) == |Utf8(c)|
    ensures forall k | 1 <= k < |Utf8(c)| :: Continuation(Utf8(c)[k])
    ensures CodePoint(Utf8(c)) == c as int
    ensures IsScalar(c as int)
  {
  }

  lemma {:induction false} Utf8RoundTrip(s: string)
    ensures Utf8Decode(Utf8Of(s)) == Some(s)
  {
    if |s| > 0 {
      Utf8RoundTrip(s[1..]);
      Utf8DecodeChar(s[0], Utf8Of(s[1..]));
      assert [s[0]] + s[1..] == s;
    }
  }

  // ---------------------------------------------------------------------
  // Percent escapes

  /** An upper-case hexadecimal digit. */
  function HexDigit(d: int): (c: char)
    requires 0 <= d < 16
    ensures Unreserved(c)
  {
    if d < 10 then ('0' as int + d) as char else ('A' as int + d - 10) as char
  }

  /** The value of a hexadecimal digit of either case. */
  function HexValue(c: char): (r: Option<int>)
    ensures r.Some? ==> 0 <= r.value < 16
  {
    if '0' <= c <= '9' then Some(c as int - '0' as int)
    else if 'A' <= c <= 'F' then Some(c as int - 'A' as int + 10)
    else if 'a' <= c <= 'f' then Some(c as int - 'a' as int + 10)
    else None
  }

  lemma HexDigitValue(d: int)
    requires 0 <= d < 16
    ensures HexValue(HexDigit(d)) == Some(d)
  {
  }

  /** `%XY` for one byte. */
  function Escape(b: Byte): (r: string)
    ensures |r| == 3 && r[0] == '%' && Unreserved(r[1]) && Unreserved(r[2])
  {
    ['%', HexDigit(b / 16), HexDigit(b % 16)]
  }

  function EscapeAll(bs: seq<Byte>): (r: string)
    ensures |r| == 3 * |bs|
  {
    if |bs| == 0 then [] else Escape(bs[0]) + EscapeAll(bs[1..])
  }

  /** Escapes hold only unreserved characters and `%`. */
  lemma {:induction false} EscapeAllUnreserved(bs: seq<Byte>)
    ensures forall i :: 0 <= i < |EscapeAll(bs)| ==> Unreserved(EscapeAll(bs)[i]) || EscapeAll(bs)[i] == '%'
  {
    if |bs| > 0 {
      EscapeAllUnreserved(bs[1..]);
      var e, t := Escape(bs[0]), EscapeAll(bs[1..]);
      assert EscapeAll(bs) == e + t;
      forall i | 0 <= i < |e + t| ensures Unreserved((e + t)[i]) || (e + t)[i] == '%' {
        if i >= 3 {
          assert (e + t)[i] == t[i - 3];
        }
      }
    }
  }

  /** The byte a text starts with and the number of characters that spell
      it: `%XY` spells the byte written in hexadecimal, any other character
      below 0x80 its own code; `None` for a malformed escape or a character
      beyond ASCII. */
  function DecodeHead(e: string): (h: Option<(Byte, nat)>)
    requires |e| > 0
    ensures h.Some? ==> 1 <= h.value.1 <= |e|
  {
    if e[0] == '%' then
      if |e| >= 3 && HexValue(e[1]).Some? && HexValue(e[2]).Some? then
        Some((HexValue(e[1]).value * 16 + HexValue(e[2]).value, 3))
      else None
    else if e[0] as int < 0x80 then Some((e[0] as int, 1))
    else None
  }

  /** Undoes the escapes, reading the text byte by byte. */
  function PercentDecode(e: string): Option<seq<Byte>>
    decreases |e|
  {
    if |e| == 0 then Some([])
    else
      match DecodeHead(e)
      case None => None
      case Some((b, n)) =>
        match PercentDecode(e[n..])
        case None => None
        case Some(rest) => Some([b] + rest)
  }

  /** One escape is read back as its byte. */
  lemma EscapeDecodes(b: Byte, rest: string)
    requires PercentDecode(rest).Some?
    ensures PercentDecode(Escape(b) + rest) == Some([b] + PercentDecode(rest).value)
  {
    var e := Escape(b) + rest;
    EscapeHead(b, rest);
    assert e[3..] == rest;
  }

  lemma EscapeHead(b: Byte, rest: string)
    ensures DecodeHead(Escape(b) + rest) == Some((b, 3))
  {
    var e := Escape(b) + rest;
    assert e[0] == '%' && e[1] == HexDigit(b / 16) && e[2] == HexDigit(b % 16);
    HexDigitValue(b / 16);
    HexDigitValue(b % 16);
  }

  lemma {:induction false} PercentDecodeEscapes(bs: seq<Byte>, rest: string)
    requires PercentDecode(rest).Some?
    ensures PercentDecode(EscapeAll(bs) + rest) == Some(bs + PercentDecode(rest).value)
  {
    if |bs| > 0 {
      PercentDecodeEscapes(bs[1..], rest);
      EscapeConsDecodes(bs[0], bs[1..], rest);
      assert [bs[0]] + bs[1..] == bs;
      AppendFirst(bs, PercentDecode(rest).value);
    } else {
      assert EscapeAll(bs) + rest == rest;
      assert bs + PercentDecode(rest).value == PercentDecode(rest).value;
    }
  }

  /** One byte more in front of escapes already read back. */
  lemma EscapeConsDecodes(b: Byte, more: seq<Byte>, rest: string)
    requires PercentDecode(rest).Some?
    requires PercentDecode(EscapeAll(more) + rest) == Some(more + PercentDecode(rest).value)
    ensures PercentDecode(EscapeAll([b] + more) + rest) == Some([b] + (more + PercentDecode(rest).value))
  {
    EscapeAllCons(b, more, rest);
    EscapeDecodes(b, EscapeAll(more) + rest);
  }

  lemma AppendFirst<T>(s: seq<T>, r: seq<T>)
    requires |s| > 0
    ensures s + r == [s[0]] + (s[1..] + r)
  {
    assert s == [s[0]] + s[1..];
  }

  lemma EscapeAllCons(b: Byte, more: seq<Byte>, rest: string)
    ensures EscapeAll([b] + more) + rest == Escape(b) + (EscapeAll(more) + rest)
  {
    assert ([b] + more)[1..] == more;
  }

  // ---------------------------------------------------------------------
  // The encoding

  /** One character as `encodeURIComponent` writes it. */
  function EncodeChar(c: char): (r: string)
    ensures forall i :: 0 <= i < |r| ==> Unreserved(r[i]) || r[i] == '%'
    ensures Unreserved(c) ==> r == [c]
    ensures !Unreserved(c) ==> |r| >= 3 && r[0] == '%'
  {
    if Unreserved(c) then [c]
    else
      EscapeAllUnreserved(Utf8(c));
      EscapeAll(Utf8(c))
  }

  /** `encodeURIComponent(s)`: the result holds only unreserved characters
      and `%`, so it cannot end a query parameter or start another. */
  function Encode(s: string): (r: string)
    ensures forall i :: 0 <= i < |r| ==> Unreserved(r[i]) || r[i] == '%'
    ensures |r| == 0 <==> |s| == 0
  {
    if |s| == 0 then [] else EncodeChar(s[0]) + Encode(s[1..])
  }

  /** `decodeURIComponent` for what `Encode` writes: the escapes undone,
      then the bytes read as UTF-8. */
  function Decode(e: string): Option<string> {
    match PercentDecode(e)
    case None => None
    case Some(bs) => Utf8Decode(bs)
  }

  lemma EncodeCharBytes(c: char, rest: string)
    requires PercentDecode(rest).Some?
    ensures PercentDecode(EncodeChar(c) + rest) == Some(Utf8(c) + PercentDecode(rest).value)
  {
    if Unreserved(c) {
      var e := [c] + rest;
      assert e[1..] == rest;
    } else {
      PercentDecodeEscapes(Utf8(c), rest);
    }
  }

  lemma {:induction false} EncodeBytes(s: string)
    ensures PercentDecode(Encode(s)) == Some(Utf8Of(s))
  {
    if |s| > 0 {
      EncodeBytes(s[1..]);
      EncodeCharBytes(s[0], Encode(s[1..]));
    }
  }

  /** Decoding undoes the encoding. */
  lemma DecodeEncode(s: string)
    ensures Decode(Encode(s)) == Some(s)
  {
    EncodeBytes(s);
    Utf8RoundTrip(s);
  }
}

=== FILE: validator.dfy ===
/** The rule chain of `FormValidator`: the four built-in rules and
    `validate`, which applies the rules listed in an input's `data-rule`
    attribute in order and stops at the first message. */
module Validator {

  import opened Maybe
  import opened Text

  // ---------------------------------------------------------------------
  // The messages

  const RequiredMessage: string := "*Trường này không được để trống."
  const EmailMessage: string := "*Email không hợp lệ."
  const MatchMessage: string := "*Giá trị không khớp."

  /** The `minLength` message shows the parameter as written, or
      `undefined` when the rule has none. */
  function MinLengthMessage(min: Option<string>): (m: string)
    ensures |m| > 0 && m[0] == '*'
  {
    "*Phải có ít nhất " + JsText(min) + " ký tự."
  }

  /** How a parameter that may be missing reads when turned into a string. */
  function JsText(p: Option<string>): string {
    if p.Some? then p.value else "undefined"
  }

  // ---------------------------------------------------------------------
  // The pattern `/\S+@\S+\.\S+/`

  /** No white space in `s[a..b]`. */
  predicate SpaceFree(s: string, a: int, b: int)
    requires 0 <= a && b <= |s|
  {
    forall m :: a <= m < b ==> !IsSpace(s[m])
  }

  /** A match of the pattern with its "@" at `at` and its "." at `dot`.
      Each `\S+` may be cut down to one character at the outer ends, so
      the match needs one non-space character before the "@", a run of at
      least one non-space character between the "@" and the ".", and one
      non-space character after the ".". */
  predicate EmailAt(s: string, at: int, dot: int) {
    && 1 <= at && at + 2 <= dot && dot + 1 < |s|
    && s[at] == '@' && s[dot] == '.'
    && !IsSpace(s[at - 1]) && SpaceFree(s, at + 1, dot) && !IsSpace(s[dot + 1])
  }

  /** `/\S+@\S+\.\S+/.test(s)`: the pattern matches somewhere in `s`. */
  predicate EmailPattern(s: string) {
    exists at, dot | 1 <= at < |s| && at + 2 <= dot < |s| - 1 :: EmailAt(s, at, dot)
  }

  /** A search for a match: each "@" with a non-space character before it
      is tried in turn, scanning the non-space run after it for a "." with
      a non-space character after it. */
  method MatchesEmail(s: string) returns (b: bool)
    ensures b <==> EmailPattern(s)
  {
    var at := 1;
    while at < |s|
      invariant 1 <= at
      invariant forall a, d :: a < at && EmailAt(s, a, d) ==> false
    {
      if s[at] == '@' && !IsSpace(s[at - 1]) {
        var d := at + 2;
        while d + 1 < |s| && !IsSpace(s[d - 1])
          invariant at + 2 <= d && d - 1 <= |s|
          invariant SpaceFree(s, at + 1, d - 1)
          invariant forall d' :: d' < d && EmailAt(s, at, d') ==> false
        {
          if s[d] == '.' && !IsSpace(s[d + 1]) {
            assert EmailAt(s, at, d);
            return true;
          }
          d := d + 1;
        }
        assert d + 1 < |s| ==> IsSpace(s[d - 1]);
      }
      at := at + 1;
    }
    return false;
  }

  // ---------------------------------------------------------------------
  // The rules

  datatype Rule = IsRequired | IsEmail | MinLength | IsMatch

  /** The rule a name selects, if it is one of the four built-in rules. */
  function RuleNamed(name: string): (r: Option<Rule>)
    ensures r == Some(IsRequired) <==> name == "isRequired"
    ensures r == Some(IsEmail) <==> name == "isEmail"
    ensures r == Some(MinLength) <==> name == "minLength"
    ensures r == Some(IsMatch) <==> name == "isMatch"
  {
    if name == "isRequired" then Some(IsRequired)
    else if name == "isEmail" then Some(IsEmail)
    else if name == "minLength" then Some(MinLength)
    else if name == "isMatch" then Some(IsMatch)
    else None
  }

  /** The first parameter of a rule, `undefined` when there is none. */
  function FirstParam(params: seq<string>): Option<string> {
    if |params| > 0 then Some(params[0]) else None
  }

  /** `value.length >= min`: the parameter is converted to a number, and a
      missing or non-numeric parameter compares false. */
  predicate LongEnough(value: string, min: Option<string>) {
    && min.Some?
    && var n := ToNumber(min.value);
       n.Some? && |value| >= n.value
  }

  /** The message one rule gives for `value`, "" when the value passes.
      `lookup` stands for reading the value of the page element with a
      given id (`None` when there is no such element or it has no value). */
  function Check(rule: Rule, value: string, params: seq<string>,
                 lookup: string -> Option<string>): (m: string)
    ensures rule == IsRequired ==> (m == "" <==> !AllSpace(value))
    ensures rule == IsMatch ==>
              (m == "" <==> lookup(JsText(FirstParam(params))) == Some(value))
    ensures rule == IsEmail ==> (m == "" <==> EmailPattern(value))
    ensures rule == MinLength ==> (m == "" <==> LongEnough(value, FirstParam(params)))
    ensures m != "" ==> m[0] == '*'
  {
    match rule
    case IsRequired => if Trim(value) != "" then "" else RequiredMessage
    case IsEmail => if EmailPattern(value) then "" else EmailMessage
    case MinLength =>
      var min := FirstParam(params);
      if LongEnough(value, min) then "" else MinLengthMessage(min)
    case IsMatch =>
      if lookup(JsText(FirstParam(params))) == Some(value) then "" else MatchMessage
  }

  // ---------------------------------------------------------------------
  // The rule list

  /** `data-rule` split into its entries; a missing or empty attribute
      (both read as "") gives no entries. */
  function RuleEntries(attr: string): (r: seq<string>)
    ensures attr == "" ==> r == []
    ensures attr != "" ==> |r| >= 1 && Join(r, ',') == attr
    ensures forall i :: 0 <= i < |r| ==> ',' !in r[i]
  {
    if attr == "" then [] else Split(attr, ',')
  }

  /** One entry `name:p1:p2...` split into its name and parameters. */
  function ParseEntry(entry: string): (r: (string, seq<string>))
    ensures ':' !in r.0
    ensures forall i :: 0 <= i < |r.1| ==> ':' !in r.1[i]
    ensures Join([r.0] + r.1, ':') == entry
  {
    var parts := Split(entry, ':');
    assert [parts[0]] + parts[1..] == parts;
    (parts[0], parts[1..])
  }

  /** The message of one entry: "" for an unknown rule name. */
  function EntryMessage(entry: string, value: string, lookup: string -> Option<string>): string {
    var (name, params) := ParseEntry(entry);
    var rule := RuleNamed(name);
    if rule.Some? then Check(rule.value, value, params, lookup) else ""
  }

  /** The reference reading of `validate`: the message of the first entry
      whose message is not empty, or "" when there is none. */
  function FirstMessage(entries: seq<string>, value: string, lookup: string -> Option<string>): (m: string)
    ensures m == "" <==> forall i :: 0 <= i < |entries| ==> EntryMessage(entries[i], value, lookup) == ""
    ensures m != "" ==> exists i :: 0 <= i < |entries| && m == EntryMessage(entries[i], value, lookup)
                                    && forall j :: 0 <= j < i ==> EntryMessage(entries[j], value, lookup) == ""
  {
    if |entries| == 0 then ""
    else
      var m := EntryMessage(entries[0], value, lookup);
      if m != "" then m
      else
        var r := FirstMessage(entries[1..], value, lookup);
        FirstMessageSkip(entries, r, value, lookup);
        r
  }

  /** An entry without a message in front of the rest leaves the rest's
      first message, and where it comes from, as they were. */
  lemma FirstMessageSkip(entries: seq<string>, r: string, value: string, lookup: string -> Option<string>)
    requires |entries| > 0 && EntryMessage(entries[0], value, lookup) == ""
    requires r == "" <==> forall i :: 0 <= i < |entries[1..]| ==> EntryMessage(entries[1..][i], value, lookup) == ""
    requires r != "" ==> exists i :: 0 <= i < |entries[1..]| && r == EntryMessage(entries[1..][i], value, lookup)
                                      && forall j :: 0 <= j < i ==> EntryMessage(entries[1..][j], value, lookup) == ""
    ensures r == "" <==> forall i :: 0 <= i < |entries| ==> EntryMessage(entries[i], value, lookup) == ""
    ensures r != "" ==> exists i :: 0 <= i < |entries| && r == EntryMessage(entries[i], value, lookup)
                                    && forall j :: 0 <= j < i ==> EntryMessage(entries[j], value, lookup) == ""
  {
    if r != "" {
      var i :| 0 <= i < |entries[1..]| && r == EntryMessage(entries[1..][i], value, lookup)
               && forall j :: 0 <= j < i ==> EntryMessage(entries[1..][j], value, lookup) == "";
      SkipToFound(entries, i, value, lookup);
    } else {
      SkipAllSilent(entries, value, lookup);
    }
  }

  /** A silent first entry shifts the rest's first message one place on. */
  lemma SkipToFound(entries: seq<string>, i: nat, value: string, lookup: string -> Option<string>)
    requires |entries| > 0 && EntryMessage(entries[0], value, lookup) == ""
    requires i < |entries| - 1
    requires forall j :: 0 <= j < i ==> EntryMessage(entries[1..][j], value, lookup) == ""
    ensures EntryMessage(entries[i + 1], value, lookup) == EntryMessage(entries[1..][i], value, lookup)
    ensures forall j :: 0 <= j < i + 1 ==> EntryMessage(entries[j], value, lookup) == ""
  {
    var tail := entries[1..];
    forall j | 1 <= j < i + 1 ensures EntryMessage(entries[j], value, lookup) == "" {
      assert entries[j] == tail[j - 1];
    }
    assert entries[i + 1] == tail[i];
  }

  /** A silent first entry in front of silent entries leaves all silent. */
  lemma SkipAllSilent(entries: seq<string>, value: string, lookup: string -> Option<string>)
    requires |entries| > 0 && EntryMessage(entries[0], value, lookup) == ""
    requires forall i :: 0 <= i < |entries[1..]| ==> EntryMessage(entries[1..][i], value, lookup) == ""
    ensures forall i :: 0 <= i < |entries| ==> EntryMessage(entries[i], value, lookup) == ""
  {
    forall i | 0 <= i < |entries| ensures EntryMessage(entries[i], value, lookup) == "" {
      if i > 0 { assert entries[i] == entries[1..][i - 1]; }
    }
  }

  /** `validate(input)`: runs the entries in order, stopping at the first
      message. `ok` is the method's return value, `message` the text it
      shows under the input ("" when the error is cleared). */
  method Validate(attr: string, value: string, lookup: string -> Option<string>)
    returns (ok: bool, message: string)
    ensures message == FirstMessage(RuleEntries(attr), value, lookup)
    ensures ok <==> message == ""
    ensures ok <==> forall i :: 0 <= i < |RuleEntries(attr)| ==>
                      EntryMessage(RuleEntries(attr)[i], value, lookup) == ""
  {
    var entries := RuleEntries(attr);
    var error := "";
    var i := 0;
    while i < |entries|
      invariant 0 <= i <= |entries|
      invariant error == ""
      invariant FirstMessage(entries, value, lookup) == FirstMessage(entries[i..], value, lookup)
    {
      var (name, params) := ParseEntry(entries[i]);
      var rule := RuleNamed(name);
      FirstMessageAt(entries, i, value, lookup);
      if rule.Some? {
        error := Check(rule.value, value, params, lookup);
        if error != "" {
          break;
        }
      }
      i := i + 1;
    }
    if i == |entries| {
      assert entries[i..] == [];
    }
    message := error;
    ok := error == "";
  }

  /** The reference reading from entry `i` on: that entry's message, or
      the reading from entry `i + 1` on when it has none. */
  lemma FirstMessageAt(entries: seq<string>, i: int, value: string, lookup: string -> Option<string>)
    requires 0 <= i < |entries|
    ensures FirstMessage(entries[i..], value, lookup)
            == if EntryMessage(entries[i], value, lookup) != "" then EntryMessage(entries[i], value, lookup)
               else FirstMessage(entries[i + 1..], value, lookup)
  {
    assert entries[i..][0] == entries[i];
    assert entries[i..][1..] == entries[i + 1..];
  }

  // ---------------------------------------------------------------------
  // Properties of the rule chain

  /** `minLength:m` with a written number `m` passes exactly when the value
      has at least `m` characters. */
  lemma MinLengthOfNumber(value: string, m: int, lookup: string -> Option<string>)
    ensures Check(MinLength, value, [IntToString(m)], lookup) == "" <==> |value| >= m
  {
    ToNumberIntToString(m);
  }

  /** `minLength` without a parameter always fails, quoting `undefined`. */
  lemma MinLengthWithoutParam(value: string, lookup: string -> Option<string>)
    ensures Check(MinLength, value, [], lookup) == "*Phải có ít nhất undefined ký tự."
  {
  }

  /** The entries are tried in order: the first list decides unless it
      gives no message at all. */
  lemma {:induction false} FirstMessageAppend(a: seq<string>, b: seq<string>, value: string,
                                              lookup: string -> Option<string>)
    ensures FirstMessage(a + b, value, lookup)
            == if FirstMessage(a, value, lookup) != "" then FirstMessage(a, value, lookup)
               else FirstMessage(b, value, lookup)
  {
    if |a| > 0 {
      assert (a + b)[0] == a[0];
      assert (a + b)[1..] == a[1..] + b;
      FirstMessageAppend(a[1..], b, value, lookup);
    } else {
      assert a + b == b;
    }
  }

  /** An entry naming no built-in rule can be added anywhere without
      changing the outcome. */
  lemma UnknownEntrySkipped(a: seq<string>, e: string, b: seq<string>, value: string,
                            lookup: string -> Option<string>)
    requires RuleNamed(ParseEntry(e).0).None?
    ensures FirstMessage(a + [e] + b, value, lookup) == FirstMessage(a + b, value, lookup)
  {
    FirstMessageAppend(a + [e], b, value, lookup);
    FirstMessageAppend(a, [e], value, lookup);
    FirstMessageAppend(a, b, value, lookup);
    assert [e][1..] == [];
  }
}
